=== FILE: README.md ===
# Jira and Argo CD clients of the Roadie Backstage plugins, in Dafny

This project models the request logic of two Backstage front-end API clients
and of one hook. It proves properties of that model.

- **The Jira client** (`JiraAPI`):
  - its configuration defaults;
  - the proxy and REST API URLs;
  - the JQL it builds from a project key, component, label and status names;
  - the paged issue search, which requests pages from cursor 0 until the
    server reports no further issues;
  - the project details it assembles: issue-type counters, ticket keys and
    flattened tickets;
  - the activity-stream URL and filter;
  - the distinct open status names.
- **The `useProjectEntity` hook**: it reads the Jira project key, component
  and token type from an entity's annotations, and the custom queries from
  `metadata.jira.count`.
- **The Argo CD client** (`ArgoCDApiClient`):
  - the choice of base URL;
  - the request headers;
  - how `fetchDecode` turns a response into a value or an error;
  - the query string and URL of `listApps`;
  - the two URL shapes of `getAppDetails`;
  - the service locator request.

Network calls, discovery and identity lookups and io-ts decoding are not part
of the model. Each becomes a function parameter, such as `fetch`, `decode`,
`enc` or `projectUrl`, or a plain input, such as the discovered proxy URL or
the identity token. Except in the service locator, whose `json` parameter may
fail, JSON parsing is assumed done: a response's body is the parsed value.

Two rules come from outside the model, each assumed only by the members
that name it:

- `Advancing` says the server's paging is well behaved. It is needed for the
  page loop to end.
- `UriCodec` says the encoder `enc` escapes `&` and `=` and the decoder
  `dec` undoes it, as `encodeURIComponent` and `decodeURIComponent` do. The
  query round trips of `listApps` assume it.

Failed requests become `Err` values of a `Result`, carrying the
status and status text the source puts in its error message. JavaScript
truthiness is modelled on `Option<string>`: a value is truthy when it is
present and non-empty. A template literal renders a missing value as the
text `undefined`, and the model does the same.

Modules:

- `Results`, `Strings`, `Seqs`: option and result types, join and split,
  decimal rendering, and sequence helpers.
- `Http`: the response record, the shared failure message and the `ok` check.
- `JiraClient`, `JiraJql`, `JiraPaging`, `JiraProject`, `JiraActivity`,
  `JiraStatuses`: the Jira client.
- `JiraEntity`: the `useProjectEntity` hook.
- `ArgoCD`: the Argo CD client.

## Model

Source paths are relative to the repository root.

| member | source | states |
|---|---|---|
| Http.CheckOk | plugins/frontend/backstage-plugin-jira/src/api/index.ts:118-122 | a response yields its body exactly when it is `ok`; otherwise an error carrying its status and status text |
| Http.Message | plugins/frontend/backstage-plugin-jira/src/api/index.ts:119-121 | the thrown message starts with `failed to fetch data, status ` |
| Http.MessageInjective | plugins/frontend/backstage-plugin-jira/src/api/index.ts:119-121 | the message identifies the failure: two failures with the same message have the same status and status text |
| Strings.IntDecimalRoundTrip | plugins/frontend/backstage-plugin-jira/src/api/index.ts:61-63 | the decimal text of an integer is canonical (no leading zero, a `-` exactly for negatives, never `-0`), is well formed, and parses back to that integer; this is what `toString` prints for integers of magnitude below 2^53 |
| Strings.CanonicalIsRendering | plugins/frontend/backstage-plugin-jira/src/api/index.ts:61-63 | the canonical text of an integer is unique: any canonical text is exactly the rendering of the integer it denotes, so canonical form and value together fix the text |
| JiraClient.NewConfig | plugins/frontend/backstage-plugin-jira/src/api/index.ts:57-67 | a missing proxy path defaults to `/jira/api`; the API version is `latest` exactly when the configured number is missing or 0; otherwise it is the number's canonical decimal text, which parses back to the number and so, by `CanonicalIsRendering`, is the only such text; the Confluence filter is kept as given |
| JiraClient.GetUrls | plugins/frontend/backstage-plugin-jira/src/api/index.ts:76-82 | the base URL is the proxy URL followed by the configured proxy path, so it starts with the proxy URL; the API URL is the base URL followed by `/rest/api/<version>/` |
| JiraClient.ApiUrlDeterminesVersion | plugins/frontend/backstage-plugin-jira/src/api/index.ts:79-79 | with the same proxy path, the same API URL means the same API version |
| JiraClient.SearchUnderApiUrl | plugins/frontend/backstage-plugin-jira/src/api/index.ts:111-111 | the issue search URL extends the API URL, and so the proxy URL |
| JiraClient.ProjectUnderApiUrl | plugins/frontend/backstage-plugin-jira/src/api/index.ts:179-179 | the project URL extends the API URL, and so the proxy URL |
| JiraClient.StatusesUnderApiUrl | plugins/frontend/backstage-plugin-jira/src/api/index.ts:281-281 | the statuses URL extends the project URL, the API URL and the proxy URL |
| JiraJql.NonEmpty | plugins/frontend/backstage-plugin-jira/src/api/index.ts:86-86 | `filter(Boolean)` keeps exactly the non-empty names, no more entries than the input has, and drops everything exactly when every name is empty |
| JiraJql.NonEmptyKeepsOrder | plugins/frontend/backstage-plugin-jira/src/api/index.ts:86-86 | the filter keeps the input order: it commutes with concatenation, so with the membership and length clauses it is determined on every input |
| JiraJql.ConvertToString | plugins/frontend/backstage-plugin-jira/src/api/index.ts:84-88 | the status list is empty exactly when every name is empty |
| JiraJql.ConvertSingle | plugins/frontend/backstage-plugin-jira/src/api/index.ts:84-88 | a single non-empty name becomes that name in single quotes |
| JiraJql.ConvertToStringSplits | plugins/frontend/backstage-plugin-jira/src/api/index.ts:84-88 | for comma-free names, splitting the list at commas gives back the non-empty names, quoted, in order |
| JiraJql.OptionalLine | plugins/frontend/backstage-plugin-jira/src/api/index.ts:148-150 | an optional clause line is blank exactly when its input is empty |
| JiraJql.Jql | plugins/frontend/backstage-plugin-jira/src/api/index.ts:147-152 | the query opens with the project clause on its own line and closes with the "not Done" line and the indented last line |
| JiraJql.JqlSplitsIntoLines | plugins/frontend/backstage-plugin-jira/src/api/index.ts:147-152 | when no input holds a line break, splitting the query at line breaks gives back exactly its lines |
| JiraJql.JqlStructure | plugins/frontend/backstage-plugin-jira/src/api/index.ts:147-152 | the query has six lines; the status, component and label lines are blank exactly when their inputs are empty and otherwise hold their clauses; the "not Done" line always follows |
| JiraPaging.SearchRequestAt | plugins/frontend/backstage-plugin-jira/src/api/index.ts:95-117 | each search is a POST to `<apiUrl>search` with JSON content, carrying the query, `maxResults` -1, the eight requested fields and the cursor |
| JiraPaging.NextCursor | plugins/frontend/backstage-plugin-jira/src/api/index.ts:124-129 | a next cursor exists exactly when issues remain past this page; it is the page's end and lies below the total |
| JiraPaging.PagedIssuesRequest | plugins/frontend/backstage-plugin-jira/src/api/index.ts:90-130 | a failed page request is an error; otherwise the page's issues and its next cursor |
| JiraPaging.GetIssuesPaged | plugins/frontend/backstage-plugin-jira/src/api/index.ts:154-167 | the loop's outcome equals the recursive reference `IssuesFrom` at cursor 0: request a page, then the rest from its next cursor until there is none, concatenating issues in request order; the first failed page makes the whole outcome its error, so no partial list is returned |
| JiraProject.CountOfType | plugins/frontend/backstage-plugin-jira/src/api/index.ts:207-209 | a type's count is at most the number of issues and is zero exactly when no issue has that type, so a single issue counts 1 exactly when it has the type |
| JiraProject.CountOfTypeAppend | plugins/frontend/backstage-plugin-jira/src/api/index.ts:207-209 | counts add up over consecutive runs of issues; with the single-issue case this makes the count the number of issues of that type |
| JiraProject.CountedTypes | plugins/frontend/backstage-plugin-jira/src/api/index.ts:201-202 | exactly the issue types not named `Sub-task` are kept |
| JiraProject.CountedTypesKeepOrder | plugins/frontend/backstage-plugin-jira/src/api/index.ts:201-202 | the selection keeps the project's order: it commutes with concatenation |
| JiraProject.CountedTypesDistinct | plugins/frontend/backstage-plugin-jira/src/api/index.ts:201-202 | the selection keeps issue-type names distinct |
| JiraProject.IssuesCounters | plugins/frontend/backstage-plugin-jira/src/api/index.ts:201-211 | one counter per kept type, in order, with its name and icon, counting the found issues of that type |
| JiraProject.CountersCoverTypes | plugins/frontend/backstage-plugin-jira/src/api/index.ts:201-211 | a project issue type has a counter exactly when it is not `Sub-task` |
| JiraProject.CountersTotalAtMostFound | plugins/frontend/backstage-plugin-jira/src/api/index.ts:201-211 | with distinct type names, the counters together never exceed the number of issues found |
| JiraProject.TicketIds | plugins/frontend/backstage-plugin-jira/src/api/index.ts:213-213 | the ticket ids are the found issues' keys, in order |
| JiraProject.ToTicket | plugins/frontend/backstage-plugin-jira/src/api/index.ts:215-228 | a ticket keeps the key; without fields every other value is missing; with fields it keeps summary, priority and dates, takes the status name, and takes the assignee's name and 48x48 avatar when present |
| JiraProject.Tickets | plugins/frontend/backstage-plugin-jira/src/api/index.ts:215-228 | one ticket per found issue, in order |
| JiraProject.Summary | plugins/frontend/backstage-plugin-jira/src/api/index.ts:229-235 | the project summary keeps the name and type; its icon is the project's 48x48 avatar, present exactly when the project has one; the URL is derived from the project's `self` link |
| JiraProject.GetProjectDetails | plugins/frontend/backstage-plugin-jira/src/api/index.ts:170-240 | a failed project request is an error; a failed search page is an error; otherwise the counters, ticket ids and tickets describe exactly the issues `IssuesFrom` finds from cursor 0 with the query for this project, component, label and statuses |
| JiraActivity.ActivityFilter | plugins/frontend/backstage-plugin-jira/src/api/index.ts:252-259 | the filter is the project stream alone unless ticket ids are given and a component or label is truthy; then it is the project stream, the ticket stream and, exactly when that filter is configured, the Confluence exclusion, with nothing else between them |
| JiraActivity.UnnarrowedIgnoresTickets | plugins/frontend/backstage-plugin-jira/src/api/index.ts:253-259 | without a component or label, neither the tickets nor the Confluence setting change the filter |
| JiraActivity.ActivityUrl | plugins/frontend/backstage-plugin-jira/src/api/index.ts:261-265 | the URL is `<baseUrl>/activity?maxResults=<size>&<filter>`; `&os_authType=basic` is appended exactly when bearer authentication is off |
| JiraActivity.BasicAuthOnlyAppendsFlag | plugins/frontend/backstage-plugin-jira/src/api/index.ts:262-264 | the basic-authentication URL is the bearer URL plus the flag, and the two differ |
| JiraActivity.GetActivityStream | plugins/frontend/backstage-plugin-jira/src/api/index.ts:242-275 | the feed's text is returned on success; a failed request is an error with its status |
| JiraStatuses.AllStatusesAppend | plugins/frontend/backstage-plugin-jira/src/api/index.ts:297-298 | `flatMap` over the issue types keeps their order: the statuses of two runs of issue types are those of the first run followed by those of the second |
| JiraStatuses.AllStatusesSingle | plugins/frontend/backstage-plugin-jira/src/api/index.ts:297-298 | one issue type contributes exactly its own statuses, so with `AllStatusesAppend` the result is each issue type's statuses in turn |
| JiraStatuses.OpenNames | plugins/frontend/backstage-plugin-jira/src/api/index.ts:297-302 | each name belongs to a status outside the Done category, every such status's name is present, and there are no more names than statuses |
| JiraStatuses.OpenNamesKeepOrder | plugins/frontend/backstage-plugin-jira/src/api/index.ts:297-302 | `filter().map()` keeps the statuses' order, repetitions included: it commutes with concatenation |
| JiraStatuses.OpenNamesSingle | plugins/frontend/backstage-plugin-jira/src/api/index.ts:299-302 | a single status yields its name exactly when it is outside the Done category, and nothing otherwise |
| Seqs.FlattenAppend | plugins/frontend/backstage-plugin-jira/src/api/index.ts:297-298 | `flatMap` keeps the order of the issue types' status lists: flattening commutes with concatenation |
| Seqs.FlattenSingle | plugins/frontend/backstage-plugin-jira/src/api/index.ts:297-298 | a single status list flattens to itself, so with `FlattenAppend` the flattening is exactly the lists one after another |
| JiraStatuses.Distinct | plugins/frontend/backstage-plugin-jira/src/api/index.ts:295-304 | `[...new Set(xs)]` has no repeats, has the same elements as `xs`, and keeps first-occurrence order |
| JiraStatuses.GetStatuses | plugins/frontend/backstage-plugin-jira/src/api/index.ts:277-305 | a failed request is an error; otherwise each open status name appears exactly once, nothing else appears, and the names keep the order in which they first appear |
| JiraEntity.Annotation | plugins/frontend/backstage-plugin-jira/src/hooks/useProjectEntity.ts:25-33 | an annotation is read exactly when metadata, annotations and key are all present |
| JiraEntity.CustomQueries | plugins/frontend/backstage-plugin-jira/src/hooks/useProjectEntity.ts:34-34 | the custom queries are present exactly when the metadata, its `jira` part and the count are all present, and are then that count |
| JiraEntity.UseProjectEntity | plugins/frontend/backstage-plugin-jira/src/hooks/useProjectEntity.ts:19-36 | project key, component and token type come from `jira/project-key`, `jira/component` and `jira/token-type`; the custom queries come from `metadata.jira.count` |
| JiraEntity.MissingAnnotationsYieldUndefined | plugins/frontend/backstage-plugin-jira/src/hooks/useProjectEntity.ts:25-33 | with no metadata or no annotations, all three settings are missing and nothing fails |
| JiraEntity.AnnotationsIndependent | plugins/frontend/backstage-plugin-jira/src/hooks/useProjectEntity.ts:19-34 | setting one of the three annotations changes only its own field of the result |
| ArgoCD.BaseUrl | plugins/frontend/backstage-plugin-argo-cd/src/api/index.ts:57-62 | searching instances, the base is the backend URL plus `/api/argocd`; otherwise the discovered proxy URL |
| ArgoCD.Headers | plugins/frontend/backstage-plugin-argo-cd/src/api/index.ts:65-71 | JSON content type always; a `Bearer` authorization header exactly when the identity token is truthy; no other header |
| ArgoCD.DecodeResponse | plugins/frontend/backstage-plugin-argo-cd/src/api/index.ts:74-92 | a failed response is an error with its status before decoding; a rejected body is a validation error carrying the codec's report; otherwise the decoded value |
| ArgoCD.FailureIgnoresDecoder | plugins/frontend/backstage-plugin-argo-cd/src/api/index.ts:74-78 | on a failed response the codec plays no part, and the message is the shared failure message |
| ArgoCD.ErrorMessage | plugins/frontend/backstage-plugin-argo-cd/src/api/index.ts:75-88 | a validation error's message is `remote data validation failed: ` followed by the report; a fetch error's message is the shared failure message |
| ArgoCD.FetchDecode | plugins/frontend/backstage-plugin-argo-cd/src/api/index.ts:64-93 | a GET with those headers succeeds exactly when the response is `ok` and its body decodes, with the decoded value; a failed response is a fetch error with its status; a rejected body is a validation error with the codec's report |
| ArgoCD.Params | plugins/frontend/backstage-plugin-argo-cd/src/api/index.ts:101-106 | the query parameters are the defined ones among selector and project, in that order, empty strings included |
| ArgoCD.ListAppsQuery | plugins/frontend/backstage-plugin-argo-cd/src/api/index.ts:105-111 | the query string is empty exactly when neither parameter is defined |
| ArgoCD.QueryRoundTrip | plugins/frontend/backstage-plugin-argo-cd/src/api/index.ts:105-111 | with an encoder that escapes `&` and `=` and a matching decoder, a strict parser (every `&`-separated piece must be exactly one `key=value` pair) reads the query back as exactly the defined parameters, in order |
| ArgoCD.ListAppsUrl | plugins/frontend/backstage-plugin-argo-cd/src/api/index.ts:112-115 | the URL is the base, the instance path and `/applications?`, followed by exactly the query |
| ArgoCD.ListAppsRequestRoundTrip | plugins/frontend/backstage-plugin-argo-cd/src/api/index.ts:100-115 | what follows the fixed prefix of the `listApps` URL reads back, under the strict parser, as exactly the defined parameters |
| ArgoCD.ListApps | plugins/frontend/backstage-plugin-argo-cd/src/api/index.ts:95-116 | `listApps` sends one GET, with the `fetchDecode` headers, to the base URL, the instance path, `/applications?` and the query; it returns the decoded list exactly when the response is `ok` and decodes, else the fetch or validation error |
| ArgoCD.AppDetailsUrl | plugins/frontend/backstage-plugin-argo-cd/src/api/index.ts:123-133 | searching instances: `/argoInstance/<instance>/applications/<app>` under the base, with a missing instance rendered as `undefined`; otherwise `<url>/applications/<app>` under the base; both end in `/applications/<app>` |
| ArgoCD.AppDetailsUrlInputs | plugins/frontend/backstage-plugin-argo-cd/src/api/index.ts:124-133 | instance search ignores the instance path; the plain mode ignores the instance name |
| ArgoCD.GetAppDetails | plugins/frontend/backstage-plugin-argo-cd/src/api/index.ts:118-134 | `getAppDetails` sends one GET, with the `fetchDecode` headers, to `<base>/argoInstance/<instance>/applications/<app>` when searching instances and `<base><url>/applications/<app>` otherwise; it returns the decoded application exactly when the response is `ok` and decodes, else the fetch or validation error |
| ArgoCD.LocatorRequest | plugins/frontend/backstage-plugin-argo-cd/src/api/index.ts:138-143 | the locator is a GET of `<base>/find/<app>` with only the JSON content type and no authorization header |
| ArgoCD.ServiceLocator | plugins/frontend/backstage-plugin-argo-cd/src/api/index.ts:136-151 | the locations are the parsed body exactly when the request completes and the body is JSON; every other outcome is the single locator error |
| ArgoCD.LocatorIgnoresStatus | plugins/frontend/backstage-plugin-argo-cd/src/api/index.ts:144-150 | the locator never checks the status: two responses with the same body give the same result |

## Left out

- The AWS entity providers (IAM roles and the key-value table) are out of scope. This project models the Jira and Argo CD API clients and the `useProjectEntity` hook.
- `generateProjectUrl` (URL parsing with `new URL` and a regular-expression rewrite) is a parameter, `projectUrl`, of `JiraProject.Summary` and `JiraProject.GetProjectDetails`.
- `encodeURIComponent` is a parameter, `enc`. The query round trip assumes only that it escapes `&` and `=` and that a decoder undoes it.
- Response bodies arrive already parsed: the `body` of a modelled `Response` is the value `response.json()` would yield. An `ok` response whose body is not JSON has no counterpart in the model. In the source, `response.json()` then throws a parse error: in the Jira requests, and in `fetchDecode` outside its `try`, so that error is not turned into a validation error.
- io-ts decoding is a parameter, `decode`. The model leaves out the text of io-ts-reporters' report, and the `throw e` branch for errors from the decoder that are not decode errors.
- Network failures of `fetch` are left out, except in `serviceLocatorUrl`, which catches them. So is the body of a request: the search body is modelled as a `SearchRequest` value, not as JSON text.
- Promise and async plumbing, the discovery API and the identity API are left out. Their results are inputs.
- The `proxyPath` option of the Argo CD client is left out. It is accepted but never read.
- JiraClient.NewConfig: the configured API version is an integer. A fractional number's `toString` text is not modelled. Neither is the text `toString` gives for an integer of magnitude 2^53 or more: from there JavaScript prints the shortest text that reads back as the same double (2^60 prints as `1152921504606847000`), and from 10^21 exponent notation (`1e+21`). The model prints every digit.
- Strings.IntDecimalRoundTrip: matches JavaScript's `toString` only for integers of magnitude below 2^53, for the reason above.
- JiraActivity.ActivityUrl: renders `size` digit by digit, which matches the source only for integers of magnitude below 2^53, as above. A fractional `size` is not modelled.
- The `Content-Type: application/json` header of the Jira project and statuses requests is left out. Those requests are modelled by their URL alone. The search request carries its method and content type.
- JiraPaging.GetIssuesPaged: requires `Advancing`, meaning the server echoes the requested cursor, reports a positive page size and a bounded total. The source does not check this. Without it, its loop may not terminate.
- JiraProject.GetProjectDetails: requires `Advancing` for the same reason, as it runs the same loop.
- JiraJql.JqlStructure: the line-by-line reading assumes no input contains a line break. An input with a line break would add lines.
- JiraJql.JqlSplitsIntoLines: also assumes no input contains a line break, for the same reason.
- JiraJql.ConvertToStringSplits: the split reading assumes no status name contains a comma and at least one name is non-empty. A comma inside a name would split it in two.
- JiraProject.CountersTotalAtMostFound: assumes distinct issue-type names. With a repeated name, an issue is counted once per counter.
- The issue-chart and activity-stream widgets, and other UI components, are left out. They are rendering around these clients.

=== FILE: argocd.dfy ===
/** The Argo CD client: where its requests go, which headers they carry, and
    how a response becomes a result or an error. */
module ArgoCD {
  import opened Results
  import opened Strings
  import opened Http

  /** The client's options. The optional `proxyPath` option is accepted but
      never read, so it is not part of the model. */
  datatype Client = Client(backendBaseUrl: string, searchInstances: bool)

  /** A request as handed to `fetch`. */
  datatype Request = Request(verb: string, url: string, headers: map<string, string>)

  /** The errors the client throws. */
  datatype ArgoError =
    | FetchFailed(http: HttpError)
    | ValidationFailed(report: string)
    | LocatorUnavailable

  const ContentType := "Content-Type"
  const Authorization := "Authorization"
  const Json := "application/json"
  const ValidationPrefix := "remote data validation failed: "
  const LocatorMessage := "Cannot get argo location(s) for service"

  /** The text of the thrown `Error`. */
  function ErrorMessage(e: ArgoError): (m: string)
    ensures e.FetchFailed? ==> m == Message(e.http)
    ensures e.ValidationFailed? ==> StartsWith(m, ValidationPrefix) && m[|ValidationPrefix|..] == e.report
    ensures e.LocatorUnavailable? ==> m == LocatorMessage
  {
    match e
    case FetchFailed(h) => Message(h)
    case ValidationFailed(report) =>
      assert (ValidationPrefix + report)[..|ValidationPrefix|] == ValidationPrefix;
      ValidationPrefix + report
    case LocatorUnavailable => LocatorMessage
  }

  /** `getBaseUrl`: the backend's Argo CD route when searching instances,
      otherwise the proxy URL the discovery service reports. */
  function BaseUrl(client: Client, discoveredProxyUrl: string): (u: string)
    ensures client.searchInstances ==> u == client.backendBaseUrl + "/api/argocd"
    ensures !client.searchInstances ==> u == discoveredProxyUrl
  {
    if client.searchInstances then client.backendBaseUrl + "/api/argocd" else discoveredProxyUrl
  }

  /** The headers of `fetchDecode`: JSON content always, and a bearer token
      exactly when the identity token is truthy; nothing else. */
  function Headers(idToken: Option<string>): (h: map<string, string>)
    ensures ContentType in h && h[ContentType] == Json
    ensures Authorization in h <==> Truthy(idToken)
    ensures Authorization in h ==> h[Authorization] == "Bearer " + idToken.value
    ensures h.Keys <= {ContentType, Authorization}
  {
    var h := map[ContentType := Json];
    if Truthy(idToken) then h[Authorization := "Bearer " + idToken.value] else h
  }

  /** The response half of `fetchDecode`: a failed response throws before its
      body is decoded; a body the codec rejects throws the codec's report. */
  function DecodeResponse<J, A>(resp: Response<J>, decode: J -> Result<A, string>): (r: Result<A, ArgoError>)
    ensures !resp.ok ==> r == Err(FetchFailed(HttpError(resp.status, resp.statusText)))
    ensures resp.ok && decode(resp.body).Ok? ==> r == Ok(decode(resp.body).value)
    ensures resp.ok && decode(resp.body).Err? ==> r == Err(ValidationFailed(decode(resp.body).error))
  {
    match CheckOk(resp)
    case Err(e) => Err(FetchFailed(e))
    case Ok(body) =>
      match decode(body)
      case Ok(a) => Ok(a)
      case Err(report) => Err(ValidationFailed(report))
  }

  /** The codec never sees a failed response: its outcome depends on the status alone. */
  lemma {:induction false} FailureIgnoresDecoder<J, A>(resp: Response<J>, d1: J -> Result<A, string>, d2: J -> Result<A, string>)
    requires !resp.ok
    ensures DecodeResponse(resp, d1) == DecodeResponse(resp, d2)
    ensures ErrorMessage(DecodeResponse(resp, d1).error) == Message(HttpError(resp.status, resp.statusText))
  {
  }

  /** `fetchDecode`: a GET of `url` with the headers above, its response decoded. */
  function FetchDecode<J, A>(url: string, idToken: Option<string>, fetch: Request -> Response<J>, decode: J -> Result<A, string>): (r: Result<A, ArgoError>)
    ensures var resp := fetch(Request("GET", url, Headers(idToken)));
            && (r.Ok? <==> resp.ok && decode(resp.body).Ok?)
            && (r.Ok? ==> r.value == decode(resp.body).value)
            && (!resp.ok ==> r == Err(FetchFailed(HttpError(resp.status, resp.statusText))))
            && (resp.ok && decode(resp.body).Err? ==> r == Err(ValidationFailed(decode(resp.body).error)))
  {
    DecodeResponse(fetch(Request("GET", url, Headers(idToken))), decode)
  }

  // ---------------------------------------------------------------------------
  // listApps

  /** The query parameters of `listApps`, in declaration order, keeping only
      those that are defined (an empty string is defined). */
  function Params(appSelector: Option<string>, projectName: Option<string>): (ps: seq<(string, string)>)
    ensures |ps| == (if appSelector.Some? then 1 else 0) + (if projectName.Some? then 1 else 0)
    ensures appSelector.Some? ==> ps[0] == ("selector", appSelector.value)
    ensures projectName.Some? ==> ps[|ps| - 1] == ("project", projectName.value)
  {
    (if appSelector.Some? then [("selector", appSelector.value)] else [])
      + (if projectName.Some? then [("project", projectName.value)] else [])
  }

  /** `key=value` with both halves URI-encoded by `enc`. */
  function Pair(enc: string -> string, p: (string, string)): (s: string)
    ensures '=' in s
  {
    assert (enc(p.0) + "=" + enc(p.1))[|enc(p.0)|] == '=';
    enc(p.0) + "=" + enc(p.1)
  }

  function Pairs(enc: string -> string, ps: seq<(string, string)>): (r: seq<string>)
    ensures |r| == |ps|
    ensures forall i :: 0 <= i < |r| ==> r[i] == Pair(enc, ps[i])
  {
    seq(|ps|, i requires 0 <= i < |ps| => Pair(enc, ps[i]))
  }

  /** The query string of `listApps`: the defined parameters joined by `&`;
      empty exactly when neither parameter is defined. */
  function ListAppsQuery(enc: string -> string, appSelector: Option<string>, projectName: Option<string>): (q: string)
    ensures q == "" <==> appSelector.None? && projectName.None?
  {
    var pieces := Pairs(enc, Params(appSelector, projectName));
    JoinEmpty(pieces, "&");
    Join(pieces, "&")
  }

  /** How a server reads such a query back: split on `&`, each piece read
      as one `key=value` pair, both halves decoded by `dec`. Nothing when
      some piece is not exactly one pair. */
  function ParseQuery(dec: string -> string, q: string): Option<seq<(string, string)>>
  {
    if q == "" then Some([]) else ParsePairs(dec, Split(q, '&'))
  }

  function ParsePairs(dec: string -> string, pieces: seq<string>): Option<seq<(string, string)>>
  {
    if |pieces| == 0 then Some([])
    else
      match ParsePair(dec, pieces[0])
      case None => None
      case Some(p) =>
        match ParsePairs(dec, pieces[1..])
        case None => None
        case Some(ps) => Some([p] + ps)
  }

  /** A piece with exactly one `=`, its two halves decoded; nothing otherwise. */
  function ParsePair(dec: string -> string, piece: string): Option<(string, string)>
  {
    var kv := Split(piece, '=');
    if |kv| == 2 then Some((dec(kv[0]), dec(kv[1]))) else None
  }

  /** Pieces that each read back as their pair read back as the whole list. */
  lemma {:induction false} ParsePairsAll(dec: string -> string, pieces: seq<string>, ps: seq<(string, string)>)
    requires |pieces| == |ps|
    requires forall i :: 0 <= i < |pieces| ==> ParsePair(dec, pieces[i]) == Some(ps[i])
    ensures ParsePairs(dec, pieces) == Some(ps)
  {
    if |pieces| > 0 {
      ParsePairsAll(dec, pieces[1..], ps[1..]);
      assert ps == [ps[0]] + ps[1..];
    }
  }

  /** An encoder that escapes `&` and `=` and that `dec` undoes, as
      `encodeURIComponent` and `decodeURIComponent` do. */
  ghost predicate UriCodec(enc: string -> string, dec: string -> string)
  {
    forall s :: '&' !in enc(s) && '=' !in enc(s) && dec(enc(s)) == s
  }

  lemma {:induction false} ParsePairOfPair(enc: string -> string, dec: string -> string, p: (string, string))
    requires UriCodec(enc, dec)
    ensures '&' !in Pair(enc, p)
    ensures ParsePair(dec, Pair(enc, p)) == Some(p)
  {
    var k, v := enc(p.0), enc(p.1);
    assert '&' !in k && '=' !in k && dec(k) == p.0;
    assert '&' !in v && '=' !in v && dec(v) == p.1;
    SplitAtFirst(k, v, '=');
    SplitOfFree(v, '=');
    assert Pair(enc, p) == k + ['='] + v;
    assert Split(Pair(enc, p), '=') == [k, v];
  }

  /** The query round-trips: a server decoding it recovers exactly the
      defined parameters, in order, empty values included. */
  lemma {:induction false} QueryRoundTrip(enc: string -> string, dec: string -> string, appSelector: Option<string>, projectName: Option<string>)
    requires UriCodec(enc, dec)
    ensures ParseQuery(dec, ListAppsQuery(enc, appSelector, projectName)) == Some(Params(appSelector, projectName))
  {
    var ps := Params(appSelector, projectName);
    var pieces := Pairs(enc, ps);
    var q := ListAppsQuery(enc, appSelector, projectName);
    if |ps| > 0 {
      forall i | 0 <= i < |pieces|
        ensures '&' !in pieces[i] && ParsePair(dec, pieces[i]) == Some(ps[i])
      {
        ParsePairOfPair(enc, dec, ps[i]);
      }
      assert "&" == ['&'];
      SplitJoin(pieces, '&');
      assert Split(q, '&') == pieces;
      ParsePairsAll(dec, pieces, ps);
    }
  }

  /** The URL `listApps` fetches: the base URL, the instance path, then the query. */
  function ListAppsUrl(baseUrl: string, url: string, query: string): (u: string)
    ensures StartsWith(u, baseUrl + url + "/applications?")
    ensures u[|baseUrl + url + "/applications?"|..] == query
  {
    var prefix := baseUrl + url + "/applications?";
    assert (prefix + query)[..|prefix|] == prefix;
    prefix + query
  }

  /** `listApps`: one authenticated GET of the base URL, the instance path,
      `/applications?` and the query; the decoded application list, or the
      error `fetchDecode` throws. */
  function ListApps<J, A>(
    client: Client,
    discoveredProxyUrl: string,
    url: string,
    appSelector: Option<string>,
    projectName: Option<string>,
    idToken: Option<string>,
    enc: string -> string,
    fetch: Request -> Response<J>,
    decode: J -> Result<A, string>): (r: Result<A, ArgoError>)
    ensures var u := BaseUrl(client, discoveredProxyUrl) + url + "/applications?" + ListAppsQuery(enc, appSelector, projectName);
            var resp := fetch(Request("GET", u, Headers(idToken)));
            && (r.Ok? <==> resp.ok && decode(resp.body).Ok?)
            && (r.Ok? ==> r.value == decode(resp.body).value)
            && (!resp.ok ==> r == Err(FetchFailed(HttpError(resp.status, resp.statusText))))
            && (resp.ok && decode(resp.body).Err? ==> r == Err(ValidationFailed(decode(resp.body).error)))
  {
    var query := ListAppsQuery(enc, appSelector, projectName);
    FetchDecode(ListAppsUrl(BaseUrl(client, discoveredProxyUrl), url, query), idToken, fetch, decode)
  }

  /** What the `listApps` request tells the server: after the fixed prefix,
      exactly the defined parameters. */
  lemma {:induction false} ListAppsRequestRoundTrip(
    client: Client, discoveredProxyUrl: string, url: string,
    appSelector: Option<string>, projectName: Option<string>,
    enc: string -> string, dec: string -> string)
    requires UriCodec(enc, dec)
    ensures var prefix := BaseUrl(client, discoveredProxyUrl) + url + "/applications?";
            var u := ListAppsUrl(BaseUrl(client, discoveredProxyUrl), url, ListAppsQuery(enc, appSelector, projectName));
            ParseQuery(dec, u[|prefix|..]) == Some(Params(appSelector, projectName))
  {
    QueryRoundTrip(enc, dec, appSelector, projectName);
  }

  // ---------------------------------------------------------------------------
  // getAppDetails

  /** The URL `getAppDetails` fetches. Searching instances, the instance name
      is interpolated as is, so a missing one becomes the text `undefined`,
      and the instance path `url` is ignored; otherwise the instance name is
      ignored. */
  function AppDetailsUrl(client: Client, baseUrl: string, url: string, appName: string, instance: Option<string>): (u: string)
    ensures client.searchInstances ==> u == baseUrl + "/argoInstance/" + Render(instance) + "/applications/" + appName
    ensures !client.searchInstances ==> u == baseUrl + url + "/applications/" + appName
    ensures EndsWith(u, "/applications/" + appName)
  {
    var tail := "/applications/" + appName;
    var head := if client.searchInstances then baseUrl + "/argoInstance/" + Render(instance) else baseUrl + url;
    assert (head + tail)[|head + tail| - |tail|..] == tail;
    assert head + tail == head + "/applications/" + appName;
    head + tail
  }

  /** Each mode reads only its own input: instance search ignores the
      instance path, the plain mode ignores the instance name. */
  lemma {:induction false} AppDetailsUrlInputs(client: Client, baseUrl: string, appName: string, url1: string, url2: string, i1: Option<string>, i2: Option<string>)
    ensures client.searchInstances ==> AppDetailsUrl(client, baseUrl, url1, appName, i1) == AppDetailsUrl(client, baseUrl, url2, appName, i1)
    ensures !client.searchInstances ==> AppDetailsUrl(client, baseUrl, url1, appName, i1) == AppDetailsUrl(client, baseUrl, url1, appName, i2)
  {
  }

  /** `getAppDetails`: one authenticated GET of the application's URL; the
      decoded application, or the error `fetchDecode` throws. */
  function GetAppDetails<J, A>(
    client: Client,
    discoveredProxyUrl: string,
    url: string,
    appName: string,
    instance: Option<string>,
    idToken: Option<string>,
    fetch: Request -> Response<J>,
    decode: J -> Result<A, string>): (r: Result<A, ArgoError>)
    ensures var base := BaseUrl(client, discoveredProxyUrl);
            var u := if client.searchInstances then base + "/argoInstance/" + Render(instance) + "/applications/" + appName
                     else base + url + "/applications/" + appName;
            var resp := fetch(Request("GET", u, Headers(idToken)));
            && (r.Ok? <==> resp.ok && decode(resp.body).Ok?)
            && (r.Ok? ==> r.value == decode(resp.body).value)
            && (!resp.ok ==> r == Err(FetchFailed(HttpError(resp.status, resp.statusText))))
            && (resp.ok && decode(resp.body).Err? ==> r == Err(ValidationFailed(decode(resp.body).error)))
  {
    FetchDecode(AppDetailsUrl(client, BaseUrl(client, discoveredProxyUrl), url, appName, instance), idToken, fetch, decode)
  }

  // ---------------------------------------------------------------------------
  // serviceLocatorUrl

  /** The locator request: a GET of `<base>/find/<appName>` with JSON content
      and no authorization header. */
  function LocatorRequest(baseUrl: string, appName: string): (req: Request)
    ensures req.verb == "GET"
    ensures StartsWith(req.url, baseUrl + "/find/") && req.url[|baseUrl + "/find/"|..] == appName
    ensures req.headers == map[ContentType := Json]
    ensures Authorization !in req.headers
  {
    var prefix := baseUrl + "/find/";
    assert (prefix + appName)[..|prefix|] == prefix;
    Request("GET", prefix + appName, map[ContentType := Json])
  }

  /** `serviceLocatorUrl`. `fetch` yields no response when the request itself
      fails and `json` yields nothing when the body is not JSON; both become
      the locator error. The status is never checked: any response with a
      JSON body is returned as the locations. */
  function ServiceLocator<J, A>(
    client: Client,
    discoveredProxyUrl: string,
    appName: string,
    fetch: Request -> Option<Response<J>>,
    json: J -> Option<A>): (r: Result<A, ArgoError>)
    ensures var resp := fetch(LocatorRequest(BaseUrl(client, discoveredProxyUrl), appName));
            && (r.Ok? <==> resp.Some? && json(resp.value.body).Some?)
            && (r.Ok? ==> r.value == json(resp.value.body).value)
            && (r.Err? ==> r.error == LocatorUnavailable)
  {
    match fetch(LocatorRequest(BaseUrl(client, discoveredProxyUrl), appName))
    case None => Err(LocatorUnavailable)
    case Some(resp) =>
      match json(resp.body)
      case None => Err(LocatorUnavailable)
      case Some(a) => Ok(a)
  }

  /** Unlike `fetchDecode`, the locator does not look at the status: two
      responses with the same body give the same result. */
  lemma {:induction false} LocatorIgnoresStatus<J, A>(
    client: Client, discoveredProxyUrl: string, appName: string,
    f1: Request -> Option<Response<J>>, f2: Request -> Option<Response<J>>, json: J -> Option<A>)
    requires var req := LocatorRequest(BaseUrl(client, discoveredProxyUrl), appName);
             f1(req).Some? && f2(req).Some? && f1(req).value.body == f2(req).value.body
    ensures ServiceLocator(client, discoveredProxyUrl, appName, f1, json) == ServiceLocator(client, discoveredProxyUrl, appName, f2, json)
  {
  }
}

=== FILE: http.dfy ===
/** What both clients do with an HTTP response: a response whose `ok` flag is
    false is turned into a thrown error carrying the status line, before its
    body is looked at. */
module Http {
  import opened Results
  import opened Strings
  import opened Seqs

  /** A fetched response; `body` is whatever the caller reads from it (JSON or text). */
  datatype Response<B> = Response(ok: bool, status: int, statusText: string, body: B)

  /** The error thrown for a response that is not ok. */
  datatype HttpError = HttpError(status: int, statusText: string)

  const FailurePrefix := "failed to fetch data, status "

  /** The message of the thrown `Error`: "failed to fetch data, status <status>: <statusText>". */
  function Message(e: HttpError): (m: string)
    ensures StartsWith(m, FailurePrefix)
  {
    FailurePrefix + IntToDecimal(e.status) + ": " + e.statusText
  }

  /** The body of an ok response, or the error a non-ok response throws. */
  function CheckOk<B>(resp: Response<B>): (r: Result<B, HttpError>)
    ensures r.Ok? <==> resp.ok
    ensures r.Ok? ==> r.value == resp.body
    ensures r.Err? ==> r.error.status == resp.status && r.error.statusText == resp.statusText
  {
    if resp.ok then Ok(resp.body) else Err(HttpError(resp.status, resp.statusText))
  }

  /** The first colon of `d + ": " + t` is the one right after `d` when `d` has none. */
  lemma {:induction false} FirstColon(d: string, t: string)
    requires ':' !in d
    ensures ':' in d + ": " + t
    ensures IndexOf(d + ": " + t, ':') == |d|
  {
    var s := d + ": " + t;
    assert s[|d|] == ':';
  }

  lemma {:induction false} ColonSplitsUniquely(d1: string, t1: string, d2: string, t2: string)
    requires ':' !in d1 && ':' !in d2
    requires d1 + ": " + t1 == d2 + ": " + t2
    ensures d1 == d2 && t1 == t2
  {
    var s := d1 + ": " + t1;
    FirstColon(d1, t1);
    FirstColon(d2, t2);
    assert d1 == s[..|d1|];
    assert t1 == s[|d1| + 2..];
  }

  /** The message identifies the failure: two failures with the same message have the same status and text. */
  lemma {:induction false} MessageInjective(a: HttpError, b: HttpError)
    requires Message(a) == Message(b)
    ensures a == b
  {
    var da, db := IntToDecimal(a.status), IntToDecimal(b.status);
    assert Message(a) == FailurePrefix + (da + ": " + a.statusText);
    assert Message(b) == FailurePrefix + (db + ": " + b.statusText);
    assert da + ": " + a.statusText == Message(a)[|FailurePrefix|..];
    assert db + ": " + b.statusText == Message(b)[|FailurePrefix|..];
    ColonSplitsUniquely(da, a.statusText, db, b.statusText);
    IntToDecimalInjective(a.status, b.status);
  }
}

=== FILE: jira_activity.dfy ===
/** `getActivityStream`: the activity-stream URL, built from the project key,
    optionally narrowed to the component's tickets and stripped of Confluence
    activity, with basic authentication requested unless a bearer token is
    in use. */
module JiraActivity {
  import opened Results
  import opened Strings
  import opened Http
  import JiraClient

  const BasicAuthSuffix := "&os_authType=basic"

  /** The stream every filter starts with: activity on the project. */
  function ProjectStream(projectKey: string): string
  {
    "streams=key+IS+" + projectKey
  }

  /** The stream of the given tickets. */
  function TicketStream(ticketIds: seq<string>): string
  {
    "&streams=issue-key+IS+" + Join(ticketIds, "+")
  }

  /** The filter hiding Confluence activity, when its name is configured. */
  function ConfluenceExclusion(confluenceActivityFilter: string): string
  {
    "&" + confluenceActivityFilter + "=activity+IS+NOT+*"
  }

  /** `ticketIds && (componentName || label)`: the stream is narrowed to the
      tickets only when they are given and a component or label is set. An
      empty list of tickets is still given. */
  predicate NarrowsToTickets(componentName: Option<string>, ticketIds: Option<seq<string>>, labelName: Option<string>)
  {
    ticketIds.Some? && (Truthy(componentName) || Truthy(labelName))
  }

  /** The `filterUrl` of `getActivityStream`. It always starts with the
      project stream; the ticket stream, then the Confluence exclusion if
      configured, follow only when the stream is narrowed to tickets. */
  function ActivityFilter(
    projectKey: string,
    componentName: Option<string>,
    ticketIds: Option<seq<string>>,
    labelName: Option<string>,
    confluenceActivityFilter: Option<string>): (f: string)
    ensures StartsWith(f, ProjectStream(projectKey))
    ensures !NarrowsToTickets(componentName, ticketIds, labelName) ==> f == ProjectStream(projectKey)
    ensures NarrowsToTickets(componentName, ticketIds, labelName) ==>
              StartsWith(f, ProjectStream(projectKey) + TicketStream(ticketIds.value))
    ensures NarrowsToTickets(componentName, ticketIds, labelName) && Truthy(confluenceActivityFilter) ==>
              f == ProjectStream(projectKey) + TicketStream(ticketIds.value) + ConfluenceExclusion(confluenceActivityFilter.value)
    ensures NarrowsToTickets(componentName, ticketIds, labelName) && Truthy(confluenceActivityFilter) ==>
              EndsWith(f, ConfluenceExclusion(confluenceActivityFilter.value))
    ensures NarrowsToTickets(componentName, ticketIds, labelName) && !Truthy(confluenceActivityFilter) ==>
              f == ProjectStream(projectKey) + TicketStream(ticketIds.value)
  {
    var base := ProjectStream(projectKey);
    if NarrowsToTickets(componentName, ticketIds, labelName) then
      var narrowed := base + TicketStream(ticketIds.value);
      var f := narrowed + (if Truthy(confluenceActivityFilter) then ConfluenceExclusion(confluenceActivityFilter.value) else "");
      assert f[..|base|] == base;
      assert f[..|narrowed|] == narrowed;
      f
    else base
  }

  /** The URL fetched: `<baseUrl>/activity?maxResults=<size>&<filter>`,
      followed by the basic-authentication flag unless a bearer token is used. */
  function ActivityUrl(baseUrl: string, size: int, filter: string, isBearerAuth: bool): (u: string)
    ensures StartsWith(u, baseUrl + "/activity?maxResults=" + IntToDecimal(size) + "&" + filter)
    ensures isBearerAuth ==> |u| == |baseUrl + "/activity?maxResults=" + IntToDecimal(size) + "&" + filter|
    ensures !isBearerAuth ==> EndsWith(u, BasicAuthSuffix)
  {
    var u := baseUrl + "/activity?maxResults=" + IntToDecimal(size) + "&" + filter;
    if isBearerAuth then u
    else
      assert (u + BasicAuthSuffix)[..|u|] == u;
      u + BasicAuthSuffix
  }

  /** The authentication mode changes nothing but the trailing flag: the
      basic-authentication URL is the bearer URL with the flag appended. */
  lemma {:induction false} BasicAuthOnlyAppendsFlag(baseUrl: string, size: int, filter: string)
    ensures ActivityUrl(baseUrl, size, filter, false) == ActivityUrl(baseUrl, size, filter, true) + BasicAuthSuffix
    ensures ActivityUrl(baseUrl, size, filter, false) != ActivityUrl(baseUrl, size, filter, true)
  {
  }

  /** Without a component or label to narrow by, neither the tickets nor the
      Confluence setting affect the filter. */
  lemma {:induction false} UnnarrowedIgnoresTickets(
    projectKey: string,
    componentName: Option<string>,
    labelName: Option<string>,
    ticketIds1: Option<seq<string>>,
    ticketIds2: Option<seq<string>>,
    confluence1: Option<string>,
    confluence2: Option<string>)
    requires !Truthy(componentName) && !Truthy(labelName)
    ensures ActivityFilter(projectKey, componentName, ticketIds1, labelName, confluence1)
         == ActivityFilter(projectKey, componentName, ticketIds2, labelName, confluence2)
  {
  }

  /** `getActivityStream`: the text of the activity feed fetched from the
      activity URL, or the error a failed request throws. */
  function GetActivityStream(
    config: JiraClient.Config,
    proxyUrl: string,
    size: int,
    projectKey: string,
    componentName: Option<string>,
    ticketIds: Option<seq<string>>,
    labelName: Option<string>,
    isBearerAuth: bool,
    fetchText: string -> Response<string>): (r: Result<string, HttpError>)
    ensures var baseUrl := JiraClient.GetUrls(config, proxyUrl).baseUrl;
            var filter := ActivityFilter(projectKey, componentName, ticketIds, labelName, config.confluenceActivityFilter);
            var resp := fetchText(ActivityUrl(baseUrl, size, filter, isBearerAuth));
            && (resp.ok ==> r == Ok(resp.body))
            && (!resp.ok ==> r == Err(HttpError(resp.status, resp.statusText)))
  {
    var baseUrl := JiraClient.GetUrls(config, proxyUrl).baseUrl;
    var filter := ActivityFilter(projectKey, componentName, ticketIds, labelName, config.confluenceActivityFilter);
    CheckOk(fetchText(ActivityUrl(baseUrl, size, filter, isBearerAuth)))
  }
}

=== FILE: jira_client.dfy ===
/** The Jira client's configuration (its constructor) and the URLs it derives
    from the proxy's base URL (`getUrls` and the per-request paths). */
module JiraClient {
  import opened Results
  import opened Strings

  const DefaultProxyPath := "/jira/api"
  const DefaultRestApiVersion := "latest"

  /** The fields the constructor fixes: proxy path, REST API version, and the
      optional Confluence activity filter name. */
  datatype Config = Config(proxyPath: string, apiVersion: string, confluenceActivityFilter: Option<string>)

  /** The two URLs `getUrls` returns. */
  datatype Urls = Urls(apiUrl: string, baseUrl: string)

  /** The constructor. `proxyPath` falls back to the default only when it is
      not configured (`??`); `apiVersion` falls back whenever the configured
      number is falsy, so a configured 0 also yields "latest". */
  function NewConfig(proxyPath: Option<string>, apiVersion: Option<int>, confluenceActivityFilter: Option<string>): (c: Config)
    ensures proxyPath.None? ==> c.proxyPath == DefaultProxyPath
    ensures proxyPath.Some? ==> c.proxyPath == proxyPath.value
    ensures c.apiVersion == DefaultRestApiVersion <==> apiVersion.None? || apiVersion.value == 0
    ensures c.apiVersion != DefaultRestApiVersion ==>
              CanonicalInt(c.apiVersion) && IntSyntax(c.apiVersion) && ParseInt(c.apiVersion) == apiVersion.value
    ensures c.confluenceActivityFilter == confluenceActivityFilter
  {
    var version :=
      if apiVersion.Some? && apiVersion.value != 0 then
        IntDecimalRoundTrip(apiVersion.value);
        IntToDecimal(apiVersion.value)
      else DefaultRestApiVersion;
    Config(proxyPath.GetOr(DefaultProxyPath), version, confluenceActivityFilter)
  }

  /** `getUrls`, given the proxy URL the discovery service returns. */
  function GetUrls(c: Config, proxyUrl: string): (u: Urls)
    ensures u.baseUrl == proxyUrl + c.proxyPath
    ensures StartsWith(u.baseUrl, proxyUrl)
    ensures u.apiUrl == u.baseUrl + "/rest/api/" + c.apiVersion + "/"
  {
    var baseUrl := proxyUrl + c.proxyPath;
    Urls(baseUrl + "/rest/api/" + c.apiVersion + "/", baseUrl)
  }

  /** The REST API URL names the version: two configurations with the same
      proxy path yield the same `apiUrl` only if their versions agree. */
  lemma {:induction false} ApiUrlDeterminesVersion(c1: Config, c2: Config, proxyUrl: string)
    requires c1.proxyPath == c2.proxyPath
    requires GetUrls(c1, proxyUrl).apiUrl == GetUrls(c2, proxyUrl).apiUrl
    ensures c1.apiVersion == c2.apiVersion
  {
    var u := GetUrls(c1, proxyUrl);
    var n := |u.baseUrl| + |"/rest/api/"|;
    assert c1.apiVersion == u.apiUrl[n..|u.apiUrl| - 1];
    assert c2.apiVersion == GetUrls(c2, proxyUrl).apiUrl[n..|u.apiUrl| - 1];
  }

  /** The project resource: `<apiUrl>project/<projectKey>`. */
  function ProjectUrl(apiUrl: string, projectKey: string): string
  {
    apiUrl + "project/" + projectKey
  }

  /** The issue search resource: `<apiUrl>search`. */
  function SearchUrl(apiUrl: string): string
  {
    apiUrl + "search"
  }

  /** The project statuses resource: `<apiUrl>project/<projectKey>/statuses`. */
  function StatusesUrl(apiUrl: string, projectKey: string): string
  {
    ProjectUrl(apiUrl, projectKey) + "/statuses"
  }

  /** The issue search lies under the REST API URL, and so under the proxy URL. */
  lemma {:induction false} SearchUnderApiUrl(c: Config, proxyUrl: string)
    ensures var u := GetUrls(c, proxyUrl);
            && StartsWith(SearchUrl(u.apiUrl), u.apiUrl)
            && StartsWith(SearchUrl(u.apiUrl), proxyUrl)
  {
    var u := GetUrls(c, proxyUrl);
    assert SearchUrl(u.apiUrl) == proxyUrl + (c.proxyPath + "/rest/api/" + c.apiVersion + "/" + "search");
  }

  /** The project resource lies under the REST API URL, and so under the proxy URL. */
  lemma {:induction false} ProjectUnderApiUrl(c: Config, proxyUrl: string, projectKey: string)
    ensures var u := GetUrls(c, proxyUrl);
            && StartsWith(ProjectUrl(u.apiUrl, projectKey), u.apiUrl)
            && StartsWith(ProjectUrl(u.apiUrl, projectKey), proxyUrl)
  {
    var u := GetUrls(c, proxyUrl);
    assert ProjectUrl(u.apiUrl, projectKey) == proxyUrl + (c.proxyPath + "/rest/api/" + c.apiVersion + "/" + "project/" + projectKey);
  }

  /** The statuses resource lies under the project resource, and so under the
      REST API URL and the proxy URL. */
  lemma {:induction false} StatusesUnderApiUrl(c: Config, proxyUrl: string, projectKey: string)
    ensures var u := GetUrls(c, proxyUrl);
            && StartsWith(StatusesUrl(u.apiUrl, projectKey), ProjectUrl(u.apiUrl, projectKey))
            && StartsWith(StatusesUrl(u.apiUrl, projectKey), u.apiUrl)
            && StartsWith(StatusesUrl(u.apiUrl, projectKey), proxyUrl)
  {
    var u := GetUrls(c, proxyUrl);
    assert StatusesUrl(u.apiUrl, projectKey) == proxyUrl + (c.proxyPath + "/rest/api/" + c.apiVersion + "/" + "project/" + projectKey + "/statuses");
  }
}

=== FILE: jira_entity.dfy ===
/** `useProjectEntity`: the Jira settings of a catalog entity, read from three
    fixed annotations, plus the custom queries under `metadata.jira.count`. */
module JiraEntity {
  import opened Results

  const ProjectKeyAnnotation := "jira/project-key"
  const TokenTypeAnnotation := "jira/token-type"
  const ComponentAnnotation := "jira/component"

  /** `metadata.jira`; the shape of a custom query `Q` is left abstract. */
  datatype JiraMetadata<Q> = JiraMetadata(count: Option<seq<Q>>)

  datatype Metadata<Q> = Metadata(annotations: Option<map<string, string>>, jira: Option<JiraMetadata<Q>>)

  /** A catalog entity, as far as the hook reads it. */
  datatype Entity<Q> = Entity(metadata: Option<Metadata<Q>>)

  /** What the hook returns; every field may be `undefined`. */
  datatype ProjectEntity<Q> = ProjectEntity(
    projectKey: Option<string>,
    component: Option<string>,
    tokenType: Option<string>,
    customQueries: Option<seq<Q>>)

  /** `entity.metadata?.annotations?.[key]`: the annotation's value, or
      `undefined` when the metadata, the annotations or the key is missing. */
  function Annotation<Q>(e: Entity<Q>, key: string): (v: Option<string>)
    ensures v.Some? <==> e.metadata.Some? && e.metadata.value.annotations.Some? && key in e.metadata.value.annotations.value
    ensures v.Some? ==> v.value == e.metadata.value.annotations.value[key]
  {
    match e.metadata
    case None => None
    case Some(m) =>
      match m.annotations
      case None => None
      case Some(a) => if key in a then Some(a[key]) else None
  }

  /** `entity.metadata?.jira?.count`: the custom queries, or `undefined` when
      the metadata, its `jira` part or the count is missing. */
  function CustomQueries<Q>(e: Entity<Q>): (q: Option<seq<Q>>)
    ensures q.Some? <==> e.metadata.Some? && e.metadata.value.jira.Some? && e.metadata.value.jira.value.count.Some?
    ensures q.Some? ==> q == e.metadata.value.jira.value.count
  {
    match e.metadata
    case None => None
    case Some(m) =>
      match m.jira
      case None => None
      case Some(j) => j.count
  }

  /** The hook: each field is the value of its own annotation. */
  function UseProjectEntity<Q>(e: Entity<Q>): (p: ProjectEntity<Q>)
    ensures p.projectKey == Annotation(e, ProjectKeyAnnotation)
    ensures p.component == Annotation(e, ComponentAnnotation)
    ensures p.tokenType == Annotation(e, TokenTypeAnnotation)
    ensures p.customQueries == CustomQueries(e)
  {
    ProjectEntity(
      Annotation(e, ProjectKeyAnnotation),
      Annotation(e, ComponentAnnotation),
      Annotation(e, TokenTypeAnnotation),
      CustomQueries(e))
  }

  /** An entity without metadata or without annotations yields no project
      key, component or token type, and no error. */
  lemma {:induction false} MissingAnnotationsYieldUndefined<Q>(e: Entity<Q>)
    requires e.metadata.None? || e.metadata.value.annotations.None?
    ensures var p := UseProjectEntity(e);
            p.projectKey.None? && p.component.None? && p.tokenType.None?
  {
  }

  /** The entity with annotation `key` set to `value` (creating the metadata and annotations if needed). */
  function Annotate<Q>(e: Entity<Q>, key: string, value: string): (e': Entity<Q>)
    ensures Annotation(e', key) == Some(value)
    ensures forall k :: k != key ==> Annotation(e', k) == Annotation(e, k)
    ensures CustomQueries(e') == CustomQueries(e)
  {
    match e.metadata
    case None => Entity(Some(Metadata(Some(map[key := value]), None)))
    case Some(m) =>
      var a := m.annotations.GetOr(map[]);
      Entity(Some(m.(annotations := Some(a[key := value]))))
  }

  /** The three annotations are read independently: setting one changes only
      its own field of the result, and never the custom queries. */
  lemma {:induction false} AnnotationsIndependent<Q>(e: Entity<Q>, value: string)
    ensures var before := UseProjectEntity(e);
            var after := UseProjectEntity(Annotate(e, ComponentAnnotation, value));
            after == before.(component := Some(value))
    ensures var before := UseProjectEntity(e);
            var after := UseProjectEntity(Annotate(e, ProjectKeyAnnotation, value));
            after == before.(projectKey := Some(value))
    ensures var before := UseProjectEntity(e);
            var after := UseProjectEntity(Annotate(e, TokenTypeAnnotation, value));
            after == before.(tokenType := Some(value))
  {
  }
}

=== FILE: jira_jql.dfy ===
/** The JQL query the Jira client sends to `/search`: a project clause,
    optional status, component and label clauses, and the exclusion of the
    "Done" status category, one clause per line of a template literal. */
module JiraJql {
  import opened Strings

  /** Wraps a status name in single quotes. */
  function Quote(s: string): (r: string)
    ensures |r| == |s| + 2 && r[0] == '\'' && r[|r| - 1] == '\''
  {
    "'" + s + "'"
  }

  function QuoteAll(xs: seq<string>): (r: seq<string>)
    ensures |r| == |xs|
    ensures forall i :: 0 <= i < |r| ==> r[i] == Quote(xs[i])
  {
    if |xs| == 0 then [] else [Quote(xs[0])] + QuoteAll(xs[1..])
  }

  /** `filter(Boolean)` on strings: the non-empty ones. */
  function NonEmpty(xs: seq<string>): (r: seq<string>)
    ensures |r| <= |xs|
    ensures forall i :: 0 <= i < |r| ==> r[i] != "" && r[i] in xs
    ensures forall i :: 0 <= i < |xs| && xs[i] != "" ==> xs[i] in r
    ensures |r| == 0 <==> forall i :: 0 <= i < |xs| ==> xs[i] == ""
  {
    if |xs| == 0 then []
    else if xs[0] != "" then [xs[0]] + NonEmpty(xs[1..])
    else
      var rest := NonEmpty(xs[1..]);
      assert forall i :: 1 <= i < |xs| ==> xs[i] == xs[1..][i - 1];
      rest
  }

  /** `filter` keeps the order of the names: it commutes with concatenation. */
  lemma {:induction false} NonEmptyKeepsOrder(a: seq<string>, b: seq<string>)
    ensures NonEmpty(a + b) == NonEmpty(a) + NonEmpty(b)
  {
    if |a| == 0 {
      assert a + b == b;
    } else {
      assert (a + b)[0] == a[0];
      assert (a + b)[1..] == a[1..] + b;
      NonEmptyKeepsOrder(a[1..], b);
    }
  }

  /** `convertToString`: the non-empty names, each in single quotes, joined with commas. */
  function ConvertToString(names: seq<string>): (r: string)
    ensures r == "" <==> forall i :: 0 <= i < |names| ==> names[i] == ""
  {
    var parts := QuoteAll(NonEmpty(names));
    JoinEmpty(parts, ",");
    Join(parts, ",")
  }

  /** With a single non-empty name the list is just that name in quotes. */
  lemma {:induction false} ConvertSingle(name: string)
    requires name != ""
    ensures ConvertToString([name]) == "'" + name + "'"
  {
    assert NonEmpty([name]) == [name];
  }

  /** When no name contains a comma, the comma-separated list splits back
      into the quoted non-empty names, in their original order. */
  lemma {:induction false} ConvertToStringSplits(names: seq<string>)
    requires forall i :: 0 <= i < |names| ==> ',' !in names[i]
    requires exists i :: 0 <= i < |names| && names[i] != ""
    ensures Split(ConvertToString(names), ',') == QuoteAll(NonEmpty(names))
  {
    var parts := QuoteAll(NonEmpty(names));
    QuotedCommaFree(names);
    assert "," == [','];
    SplitJoin(parts, ',');
  }

  /** Quoting comma-free names adds no comma. */
  lemma {:induction false} QuotedCommaFree(names: seq<string>)
    requires forall i :: 0 <= i < |names| ==> ',' !in names[i]
    ensures forall i :: 0 <= i < |QuoteAll(NonEmpty(names))| ==> ',' !in QuoteAll(NonEmpty(names))[i]
  {
    var kept := NonEmpty(names);
    forall i | 0 <= i < |kept|
      ensures ',' !in Quote(kept[i])
    {
      assert kept[i] in names;
      assert Quote(kept[i]) == ['\''] + kept[i] + ['\''];
    }
  }

  // The template literal's layout: every clause line is indented by six
  // spaces, and the literal ends with a line of four spaces.
  const Indent := "      "
  const DoneClause := "AND statuscategory not in (\"Done\") "
  const ClosingLine := "    "

  function ProjectClause(projectKey: string): string
  {
    "project = \"" + projectKey + "\""
  }

  function StatusClause(statuses: string): string
  {
    "AND status in (" + statuses + ")"
  }

  function ComponentClause(component: string): string
  {
    "AND component = \"" + component + "\""
  }

  function LabelClause(labelName: string): string
  {
    "AND labels in (\"" + labelName + "\")"
  }

  /** An indented clause line: the clause when its input is non-empty, blank otherwise. */
  function OptionalLine(input: string, clause: string): (line: string)
    ensures line == Indent <==> input == "" || clause == ""
    ensures '\n' !in Indent && ('\n' !in clause ==> '\n' !in line)
  {
    Indent + (if input != "" then clause else "")
  }

  function StatusLine(statusesNames: seq<string>): string
  {
    var statuses := ConvertToString(statusesNames);
    OptionalLine(statuses, StatusClause(statuses))
  }

  function ComponentLine(component: string): string
  {
    OptionalLine(component, ComponentClause(component))
  }

  function LabelLine(labelName: string): string
  {
    OptionalLine(labelName, LabelClause(labelName))
  }

  function DoneLine(): string
  {
    Indent + DoneClause
  }

  /** The lines of the query, in order. */
  function JqlLines(projectKey: string, component: string, labelName: string, statusesNames: seq<string>): seq<string>
  {
    [ProjectClause(projectKey), StatusLine(statusesNames), ComponentLine(component), LabelLine(labelName), DoneLine(), ClosingLine]
  }

  /** The JQL of `getIssuesPaged`: the lines of the template literal joined
      by line breaks. It always opens with the project clause and always ends
      with the exclusion of the "Done" category. */
  function Jql(projectKey: string, component: string, labelName: string, statusesNames: seq<string>): (q: string)
    ensures StartsWith(q, ProjectClause(projectKey) + "\n")
    ensures EndsWith(q, "\n" + DoneLine() + "\n" + ClosingLine)
  {
    var lines := JqlLines(projectKey, component, labelName, statusesNames);
    JoinStartsWithFirstAndSep(lines, "\n");
    JoinEndsWithLastTwo(lines, "\n");
    Join(lines, "\n")
  }

  /** No input contains a line break. */
  predicate SingleLine(projectKey: string, component: string, labelName: string, statusesNames: seq<string>)
  {
    && '\n' !in projectKey && '\n' !in component && '\n' !in labelName
    && forall i :: 0 <= i < |statusesNames| ==> '\n' !in statusesNames[i]
  }

  lemma {:induction false} ConvertToStringSingleLine(names: seq<string>)
    requires forall i :: 0 <= i < |names| ==> '\n' !in names[i]
    ensures '\n' !in ConvertToString(names)
  {
    var kept := NonEmpty(names);
    var parts := QuoteAll(kept);
    forall i | 0 <= i < |parts|
      ensures '\n' !in parts[i]
    {
      assert kept[i] in names;
    }
    JoinFree(parts, ",", '\n');
  }

  /** No line of the query contains a line break of its own. */
  lemma {:induction false} LinesFree(projectKey: string, component: string, labelName: string, statusesNames: seq<string>)
    requires SingleLine(projectKey, component, labelName, statusesNames)
    ensures Free(JqlLines(projectKey, component, labelName, statusesNames), '\n')
  {
    ProjectLineFree(projectKey);
    StatusLineFree(statusesNames);
    ComponentLineFree(component);
    LabelLineFree(labelName);
    DoneLineFree();
    assert '\n' !in ClosingLine;
    FreeSix(ProjectClause(projectKey), StatusLine(statusesNames), ComponentLine(component),
            LabelLine(labelName), DoneLine(), ClosingLine, '\n');
  }

  lemma {:induction false} FreeSix(a: string, b: string, c: string, d: string, e: string, f: string, ch: char)
    requires ch !in a && ch !in b && ch !in c && ch !in d && ch !in e && ch !in f
    ensures Free([a, b, c, d, e, f], ch)
  {
    var parts := [a, b, c, d, e, f];
    forall i | 0 <= i < |parts|
      ensures ch !in parts[i]
    {
      if i == 0 { assert parts[i] == a; }
      else if i == 1 { assert parts[i] == b; }
      else if i == 2 { assert parts[i] == c; }
      else if i == 3 { assert parts[i] == d; }
      else if i == 4 { assert parts[i] == e; }
      else { assert parts[i] == f; }
    }
  }

  lemma {:induction false} ProjectLineFree(projectKey: string)
    requires '\n' !in projectKey
    ensures '\n' !in ProjectClause(projectKey)
  {
  }

  lemma {:induction false} StatusLineFree(statusesNames: seq<string>)
    requires forall i :: 0 <= i < |statusesNames| ==> '\n' !in statusesNames[i]
    ensures '\n' !in StatusLine(statusesNames)
  {
    ConvertToStringSingleLine(statusesNames);
    ClauseFree("AND status in (", ConvertToString(statusesNames), ")");
  }

  lemma {:induction false} ComponentLineFree(component: string)
    requires '\n' !in component
    ensures '\n' !in ComponentLine(component)
  {
  }

  lemma {:induction false} LabelLineFree(labelName: string)
    requires '\n' !in labelName
    ensures '\n' !in LabelLine(labelName)
  {
  }

  lemma {:induction false} DoneLineFree()
    ensures '\n' !in DoneLine()
  {
  }

  /** A clause wraps its input in two fixed texts without line breaks. */
  lemma {:induction false} ClauseFree(before: string, input: string, after: string)
    requires '\n' !in before && '\n' !in after && '\n' !in input
    ensures '\n' !in before + input + after
  {
  }

  lemma {:induction false} JqlSplitsIntoLines(projectKey: string, component: string, labelName: string, statusesNames: seq<string>)
    requires SingleLine(projectKey, component, labelName, statusesNames)
    ensures Split(Jql(projectKey, component, labelName, statusesNames), '\n') == JqlLines(projectKey, component, labelName, statusesNames)
  {
    LinesFree(projectKey, component, labelName, statusesNames);
    SplitJoin(JqlLines(projectKey, component, labelName, statusesNames), '\n');
  }

  /** Read line by line, the query has exactly six lines: the project clause;
      the status, component and label lines, each carrying its clause when
      its input is non-empty and blank exactly when it is empty; the "Done"
      exclusion; and the closing line. */
  lemma {:induction false} JqlStructure(projectKey: string, component: string, labelName: string, statusesNames: seq<string>)
    requires SingleLine(projectKey, component, labelName, statusesNames)
    ensures var lines := Split(Jql(projectKey, component, labelName, statusesNames), '\n');
            var statuses := ConvertToString(statusesNames);
            && |lines| == 6
            && lines[0] == ProjectClause(projectKey)
            && (lines[1] == Indent <==> forall i :: 0 <= i < |statusesNames| ==> statusesNames[i] == "")
            && (statuses != "" ==> lines[1] == Indent + StatusClause(statuses))
            && (lines[2] == Indent <==> component == "")
            && (component != "" ==> lines[2] == Indent + ComponentClause(component))
            && (lines[3] == Indent <==> labelName == "")
            && (labelName != "" ==> lines[3] == Indent + LabelClause(labelName))
            && lines[4] == Indent + DoneClause
            && lines[5] == ClosingLine
  {
    JqlSplitsIntoLines(projectKey, component, labelName, statusesNames);
  }
}

=== FILE: jira_paging.dfy ===
/** Paged issue search: one `/search` request per page (`pagedIssuesRequest`)
    and the loop of `getIssuesPaged` that requests pages from cursor 0 until
    a page reports no next cursor, collecting the issues in request order. */
module JiraPaging {
  import opened Results
  import opened Http
  import JiraClient

  datatype IssueTypeRef = IssueTypeRef(name: string)
  datatype Assignee = Assignee(displayName: string, avatarUrls: map<string, string>)
  datatype Priority = Priority(name: string, iconUrl: string)
  datatype StatusRef = StatusRef(name: string)

  /** The fields the search asks for; the optional chaining of the source reads each of them as possibly absent. */
  datatype IssueFields = IssueFields(
    issuetype: IssueTypeRef,
    summary: Option<string>,
    assignee: Option<Assignee>,
    status: Option<StatusRef>,
    priority: Option<Priority>,
    created: Option<string>,
    updated: Option<string>)

  /** One issue of a search response. */
  datatype Issue = Issue(key: string, fields: Option<IssueFields>)

  /** A `/search` request: its method, URL and content type, and the fields
      of the JSON body it sends. */
  datatype SearchRequest = SearchRequest(
    verb: string,
    url: string,
    contentType: string,
    jql: string,
    maxResults: int,
    fields: seq<string>,
    startAt: int)

  /** The decoded body of a `/search` response. */
  datatype IssuesResponse = IssuesResponse(issues: seq<Issue>, startAt: int, maxResults: int, total: int)

  /** What `pagedIssuesRequest` returns: the page's issues and the next cursor, if any. */
  datatype IssuesResult = IssuesResult(issues: seq<Issue>, next: Option<int>)

  /** The network: the response to POSTing a search request, its body decoded. */
  type SearchFetch = SearchRequest -> Response<IssuesResponse>

  /** `maxResults: -1` asks the server for its own page size. */
  const RequestedMaxResults := -1
  const SearchVerb := "POST"
  const JsonContent := "application/json"
  const SearchFields := ["key", "issuetype", "summary", "status", "assignee", "priority", "created", "updated"]

  function SearchRequestAt(apiUrl: string, jql: string, startAt: int): (req: SearchRequest)
    ensures req.verb == SearchVerb && req.contentType == JsonContent
    ensures req.url == JiraClient.SearchUrl(apiUrl) && req.jql == jql && req.startAt == startAt
    ensures req.maxResults == RequestedMaxResults && req.fields == SearchFields
  {
    SearchRequest(SearchVerb, JiraClient.SearchUrl(apiUrl), JsonContent, jql, RequestedMaxResults, SearchFields, startAt)
  }

  /** The cursor of the page after `resp`: the end of this page while the
      server reports more issues beyond it, absent otherwise. */
  function NextCursor(resp: IssuesResponse): (next: Option<int>)
    ensures next.Some? <==> resp.startAt + resp.maxResults < resp.total
    ensures next.Some? ==> next.value == resp.startAt + resp.maxResults
    ensures next.Some? ==> next.value < resp.total
  {
    var lastElement := resp.startAt + resp.maxResults;
    if resp.total > lastElement then Some(lastElement) else None
  }

  /** `pagedIssuesRequest`: a failed request throws; otherwise the page's
      issues and its next cursor. */
  function PagedIssuesRequest(fetch: SearchFetch, apiUrl: string, jql: string, startAt: int): (r: Result<IssuesResult, HttpError>)
    ensures var resp := fetch(SearchRequestAt(apiUrl, jql, startAt));
            && (!resp.ok ==> r == Err(HttpError(resp.status, resp.statusText)))
            && (resp.ok ==> r == Ok(IssuesResult(resp.body.issues, NextCursor(resp.body))))
  {
    match CheckOk(fetch(SearchRequestAt(apiUrl, jql, startAt)))
    case Err(e) => Err(e)
    case Ok(page) => Ok(IssuesResult(page.issues, NextCursor(page)))
  }

  /** The server's paging is well behaved: every page answers at the cursor
      requested, holds a positive page size, and reports a total no larger
      than `bound`. The client does not check this; without it the loop of
      `getIssuesPaged` need not end. */
  ghost predicate Advancing(fetch: SearchFetch, bound: int)
  {
    forall req :: fetch(req).ok ==>
      && fetch(req).body.startAt == req.startAt
      && fetch(req).body.maxResults > 0
      && fetch(req).body.total <= bound
  }

  /** `issues` followed by the outcome's issues; an error stays that error. */
  function Prepend(issues: seq<Issue>, outcome: Result<seq<Issue>, HttpError>): Result<seq<Issue>, HttpError>
  {
    match outcome
    case Err(e) => Err(e)
    case Ok(rest) => Ok(issues + rest)
  }

  /** The reference definition of paging from cursor `at`: request the page
      there, then, while the server reports a next cursor, the rest from
      that cursor, concatenating the issues in request order. The first
      failed request makes the whole outcome its error. */
  function IssuesFrom(fetch: SearchFetch, apiUrl: string, jql: string, at: int, ghost bound: int): Result<seq<Issue>, HttpError>
    requires Advancing(fetch, bound)
    decreases if at < bound then bound - at else 0
  {
    match PagedIssuesRequest(fetch, apiUrl, jql, at)
    case Err(e) => Err(e)
    case Ok(page) =>
      if page.next.None? then Ok(page.issues)
      else
        assert at < page.next.value < bound;
        Prepend(page.issues, IssuesFrom(fetch, apiUrl, jql, page.next.value, bound))
  }

  /** Prepending nothing changes nothing. */
  lemma {:induction false} PrependNothing(outcome: Result<seq<Issue>, HttpError>)
    ensures Prepend([], outcome) == outcome
  {
    if outcome.Ok? {
      assert [] + outcome.value == outcome.value;
    }
  }

  /** Prepending twice is prepending the concatenation. */
  lemma {:induction false} PrependTwice(a: seq<Issue>, b: seq<Issue>, outcome: Result<seq<Issue>, HttpError>)
    ensures Prepend(a, Prepend(b, outcome)) == Prepend(a + b, outcome)
  {
    if outcome.Ok? {
      assert a + (b + outcome.value) == (a + b) + outcome.value;
    }
  }

  /** A measure for the loop: how far a cursor is from the bound. */
  function Remaining(cursor: Option<int>, bound: int): nat
  {
    if cursor.None? then 0
    else if cursor.value < bound then bound - cursor.value + 1
    else 1
  }

  /** The loop of `getIssuesPaged`. It requests the page at cursor 0, then at
      each next cursor, until a page has none. A failed request ends the loop
      with that error, so no partial list is returned; otherwise the result
      is every page's issues in request order, as `IssuesFrom` defines. */
  method GetIssuesPaged(fetch: SearchFetch, apiUrl: string, jql: string, ghost bound: int)
    returns (r: Result<seq<Issue>, HttpError>)
    requires Advancing(fetch, bound)
    ensures r == IssuesFrom(fetch, apiUrl, jql, 0, bound)
  {
    var startAt: Option<int> := Some(0);
    var issues: seq<Issue> := [];
    PrependNothing(IssuesFrom(fetch, apiUrl, jql, 0, bound));
    while startAt.Some?
      invariant startAt.Some? ==> IssuesFrom(fetch, apiUrl, jql, 0, bound) == Prepend(issues, IssuesFrom(fetch, apiUrl, jql, startAt.value, bound))
      invariant startAt.None? ==> IssuesFrom(fetch, apiUrl, jql, 0, bound) == Ok(issues)
      decreases Remaining(startAt, bound)
    {
      var at := startAt.value;
      var res := PagedIssuesRequest(fetch, apiUrl, jql, at);
      if res.Err? {
        return Err(res.error);
      }
      var page := res.value;
      if page.next.Some? {
        PrependTwice(issues, page.issues, IssuesFrom(fetch, apiUrl, jql, page.next.value, bound));
      }
      startAt := page.next;
      issues := issues + page.issues;
    }
    r := Ok(issues);
  }
}

=== FILE: jira_project.dfy ===
/** `getProjectDetails`: the project resource, every open issue matching the
    filters (through the paged search), a counter per issue type except
    "Sub-task", and the list of tickets. */
module JiraProject {
  import opened Results
  import opened Http
  import opened JiraPaging
  import JiraClient
  import JiraJql

  datatype IssueType = IssueType(name: string, iconUrl: string)

  /** The decoded project resource. */
  datatype Project = Project(
    name: string,
    avatarUrls: map<string, string>,
    projectTypeKey: string,
    self: string,
    issueTypes: seq<IssueType>)

  datatype IssuesCounter = IssuesCounter(name: string, iconUrl: string, total: nat)

  datatype TicketAssignee = TicketAssignee(displayName: Option<string>, avatarUrl: Option<string>)

  /** The flattened view of an issue the client returns. */
  datatype Ticket = Ticket(
    key: string,
    summary: Option<string>,
    assignee: TicketAssignee,
    status: Option<string>,
    priority: Option<Priority>,
    created: Option<string>,
    updated: Option<string>)

  datatype ProjectSummary = ProjectSummary(name: string, iconUrl: Option<string>, projectType: string, url: string)

  datatype ProjectDetails = ProjectDetails(
    project: ProjectSummary,
    issues: seq<IssuesCounter>,
    ticketIds: seq<string>,
    tickets: seq<Ticket>)

  const SubTask := "Sub-task"
  const AvatarSize := "48x48"

  /** `issue.fields?.issuetype.name === name`. */
  predicate HasType(issue: Issue, name: string)
  {
    issue.fields.Some? && issue.fields.value.issuetype.name == name
  }

  /** `found.filter(issue => issue.fields?.issuetype.name === name).length`. */
  function CountOfType(found: seq<Issue>, name: string): (n: nat)
    ensures n <= |found|
    ensures n == 0 <==> forall i :: 0 <= i < |found| ==> !HasType(found[i], name)
  {
    if |found| == 0 then 0
    else
      var rest := CountOfType(found[1..], name);
      assert forall i :: 1 <= i < |found| ==> found[i] == found[1..][i - 1];
      (if HasType(found[0], name) then 1 else 0) + rest
  }

  /** Counting adds up over consecutive runs of issues. */
  lemma {:induction false} CountOfTypeAppend(a: seq<Issue>, b: seq<Issue>, name: string)
    ensures CountOfType(a + b, name) == CountOfType(a, name) + CountOfType(b, name)
  {
    if |a| == 0 {
      assert a + b == b;
    } else {
      assert (a + b)[0] == a[0];
      assert (a + b)[1..] == a[1..] + b;
      CountOfTypeAppend(a[1..], b, name);
    }
  }

  /** The issue types that get a counter: all but "Sub-task", in the project's order. */
  function CountedTypes(issueTypes: seq<IssueType>): (r: seq<IssueType>)
    ensures |r| <= |issueTypes|
    ensures forall i :: 0 <= i < |r| ==> r[i].name != SubTask && r[i] in issueTypes
    ensures forall i :: 0 <= i < |issueTypes| && issueTypes[i].name != SubTask ==> issueTypes[i] in r
  {
    if |issueTypes| == 0 then []
    else
      var rest := CountedTypes(issueTypes[1..]);
      assert forall i :: 1 <= i < |issueTypes| ==> issueTypes[i] == issueTypes[1..][i - 1];
      if issueTypes[0].name != SubTask then [issueTypes[0]] + rest else rest
  }

  /** Selecting the counted types keeps the project's order: it commutes with concatenation. */
  lemma {:induction false} CountedTypesKeepOrder(a: seq<IssueType>, b: seq<IssueType>)
    ensures CountedTypes(a + b) == CountedTypes(a) + CountedTypes(b)
  {
    if |a| == 0 {
      assert a + b == b;
    } else {
      var ab := a + b;
      assert ab[0] == a[0];
      assert ab[1..] == a[1..] + b;
      CountedTypesKeepOrder(a[1..], b);
      var tail := CountedTypes(a[1..]);
      if a[0].name != SubTask {
        calc {
          CountedTypes(ab);
          [a[0]] + CountedTypes(ab[1..]);
          [a[0]] + (tail + CountedTypes(b));
          ([a[0]] + tail) + CountedTypes(b);
          CountedTypes(a) + CountedTypes(b);
        }
      } else {
        assert CountedTypes(ab) == CountedTypes(ab[1..]);
        assert CountedTypes(a) == tail;
      }
    }
  }

  /** The issue counters: one per counted issue type, in the project's order,
      each holding the number of found issues of that type. */
  function IssuesCounters(issueTypes: seq<IssueType>, found: seq<Issue>): (r: seq<IssuesCounter>)
    ensures |r| == |CountedTypes(issueTypes)|
    ensures forall i :: 0 <= i < |r| ==> r[i].name != SubTask && r[i].total <= |found|
    ensures forall i :: 0 <= i < |r| ==>
              && r[i].name == CountedTypes(issueTypes)[i].name
              && r[i].iconUrl == CountedTypes(issueTypes)[i].iconUrl
              && r[i].total == CountOfType(found, r[i].name)
  {
    var counted := CountedTypes(issueTypes);
    seq(|counted|, i requires 0 <= i < |counted| =>
      IssuesCounter(counted[i].name, counted[i].iconUrl, CountOfType(found, counted[i].name)))
  }

  /** Every project issue type other than "Sub-task" has a counter, and "Sub-task" has none. */
  lemma {:induction false} CountersCoverTypes(issueTypes: seq<IssueType>, found: seq<Issue>, t: IssueType)
    requires t in issueTypes
    ensures var r := IssuesCounters(issueTypes, found);
            (exists i :: 0 <= i < |r| && r[i].name == t.name) <==> t.name != SubTask
  {
    var counted := CountedTypes(issueTypes);
    var r := IssuesCounters(issueTypes, found);
    if t.name != SubTask {
      var k0 :| 0 <= k0 < |issueTypes| && issueTypes[k0] == t;
      var k :| 0 <= k < |counted| && counted[k] == t;
      assert r[k].name == t.name;
    }
  }

  function SumTotals(counters: seq<IssuesCounter>): nat
  {
    if |counters| == 0 then 0 else counters[0].total + SumTotals(counters[1..])
  }

  /** The number of found issues whose type is one of `names`. */
  function CountOfTypes(found: seq<Issue>, names: set<string>): (n: nat)
    ensures n <= |found|
  {
    if |found| == 0 then 0
    else
      var rest := CountOfTypes(found[1..], names);
      if found[0].fields.Some? && found[0].fields.value.issuetype.name in names then 1 + rest else rest
  }

  lemma {:induction false} CountOfNoTypes(found: seq<Issue>)
    ensures CountOfTypes(found, {}) == 0
  {
    if |found| > 0 {
      CountOfNoTypes(found[1..]);
    }
  }

  lemma {:induction false} CountOfTypeAdds(found: seq<Issue>, name: string, names: set<string>)
    requires name !in names
    ensures CountOfType(found, name) + CountOfTypes(found, names) == CountOfTypes(found, names + {name})
  {
    if |found| > 0 {
      CountOfTypeAdds(found[1..], name, names);
    }
  }

  function Names(counters: seq<IssuesCounter>): set<string>
  {
    set i | 0 <= i < |counters| :: counters[i].name
  }

  lemma {:induction false} SumTotalsCountsOnce(counters: seq<IssuesCounter>, found: seq<Issue>)
    requires forall i :: 0 <= i < |counters| ==> counters[i].total == CountOfType(found, counters[i].name)
    requires forall i, j :: 0 <= i < j < |counters| ==> counters[i].name != counters[j].name
    ensures SumTotals(counters) == CountOfTypes(found, Names(counters))
  {
    if |counters| == 0 {
      assert Names(counters) == {};
      CountOfNoTypes(found);
    } else {
      var rest := counters[1..];
      SumTotalsCountsOnce(rest, found);
      assert Names(counters) == Names(rest) + {counters[0].name} by {
        forall n | n in Names(counters) ensures n in Names(rest) + {counters[0].name} {
          var i :| 0 <= i < |counters| && counters[i].name == n;
          if i > 0 { assert rest[i - 1].name == n; }
        }
      }
      assert counters[0].name !in Names(rest);
      CountOfTypeAdds(found, counters[0].name, Names(rest));
    }
  }

  /** When the project's issue types have distinct names, the counters never
      count an issue twice: their totals add up to at most the number of
      found issues. */
  lemma {:induction false} CountersTotalAtMostFound(issueTypes: seq<IssueType>, found: seq<Issue>)
    requires DistinctNames(issueTypes)
    ensures SumTotals(IssuesCounters(issueTypes, found)) <= |found|
  {
    var counted := CountedTypes(issueTypes);
    var r := IssuesCounters(issueTypes, found);
    CountedTypesDistinct(issueTypes);
    assert forall i :: 0 <= i < |r| ==> r[i].name == counted[i].name && r[i].total == CountOfType(found, r[i].name);
    forall i, j | 0 <= i < j < |r| ensures r[i].name != r[j].name {
      assert counted[i].name != counted[j].name;
    }
    SumTotalsCountsOnce(r, found);
  }

  /** No two issue types share a name. */
  predicate DistinctNames(issueTypes: seq<IssueType>)
  {
    forall i, j :: 0 <= i < j < |issueTypes| ==> issueTypes[i].name != issueTypes[j].name
  }

  lemma {:induction false} CountedTypesDistinct(issueTypes: seq<IssueType>)
    requires DistinctNames(issueTypes)
    ensures DistinctNames(CountedTypes(issueTypes))
  {
    if |issueTypes| > 0 {
      var first, rest := issueTypes[0], issueTypes[1..];
      assert DistinctNames(rest) by {
        forall i, j | 0 <= i < j < |rest| ensures rest[i].name != rest[j].name {
          assert rest[i] == issueTypes[i + 1] && rest[j] == issueTypes[j + 1];
        }
      }
      assert NotNamed(rest, first.name) by {
        forall i | 0 <= i < |rest| ensures rest[i].name != first.name {
          assert rest[i] == issueTypes[i + 1];
        }
      }
      CountedTypesDistinct(rest);
      CountedTypesNotNamed(rest, first.name);
      if first.name != SubTask {
        DistinctCons(first, CountedTypes(rest));
      }
    }
  }

  /** No issue type in `issueTypes` is named `name`. */
  predicate NotNamed(issueTypes: seq<IssueType>, name: string)
  {
    forall i :: 0 <= i < |issueTypes| ==> issueTypes[i].name != name
  }

  lemma {:induction false} CountedTypesNotNamed(issueTypes: seq<IssueType>, name: string)
    requires NotNamed(issueTypes, name)
    ensures NotNamed(CountedTypes(issueTypes), name)
  {
    if |issueTypes| > 0 {
      CountedTypesNotNamed(issueTypes[1..], name);
    }
  }

  lemma {:induction false} DistinctCons(t: IssueType, ts: seq<IssueType>)
    requires DistinctNames(ts) && NotNamed(ts, t.name)
    ensures DistinctNames([t] + ts)
  {
    var full := [t] + ts;
    forall i, j | 0 <= i < j < |full| ensures full[i].name != full[j].name {
      assert full[j] == ts[j - 1];
      if i > 0 {
        assert full[i] == ts[i - 1];
      }
    }
  }

  /** The ticket the client builds from an issue, reading each field through optional chaining. */
  function ToTicket(issue: Issue): (t: Ticket)
    ensures t.key == issue.key
    ensures issue.fields.None? ==> t == Ticket(issue.key, None, TicketAssignee(None, None), None, None, None, None)
    ensures issue.fields.Some? ==>
              var f := issue.fields.value;
              && t.summary == f.summary && t.priority == f.priority
              && t.created == f.created && t.updated == f.updated
              && (t.status.Some? <==> f.status.Some?)
              && (f.status.Some? ==> t.status.value == f.status.value.name)
              && (t.assignee.displayName.Some? <==> f.assignee.Some?)
              && (f.assignee.Some? ==> t.assignee.displayName.value == f.assignee.value.displayName)
              && (t.assignee.avatarUrl.Some? <==> f.assignee.Some? && AvatarSize in f.assignee.value.avatarUrls)
              && (t.assignee.avatarUrl.Some? ==> t.assignee.avatarUrl.value == f.assignee.value.avatarUrls[AvatarSize])
  {
    match issue.fields
    case None => Ticket(issue.key, None, TicketAssignee(None, None), None, None, None, None)
    case Some(f) =>
      var assignee :=
        match f.assignee
        case None => TicketAssignee(None, None)
        case Some(a) => TicketAssignee(Some(a.displayName), if AvatarSize in a.avatarUrls then Some(a.avatarUrls[AvatarSize]) else None);
      var status := match f.status case None => None case Some(s) => Some(s.name);
      Ticket(issue.key, f.summary, assignee, status, f.priority, f.created, f.updated)
  }

  /** `ticketIds`: the keys of the found issues, in order. */
  function TicketIds(found: seq<Issue>): (ids: seq<string>)
    ensures |ids| == |found|
    ensures forall i :: 0 <= i < |ids| ==> ids[i] == found[i].key
  {
    seq(|found|, i requires 0 <= i < |found| => found[i].key)
  }

  /** `tickets`: one ticket per found issue, in order. */
  function Tickets(found: seq<Issue>): (ts: seq<Ticket>)
    ensures |ts| == |found|
    ensures forall i :: 0 <= i < |ts| ==> ts[i] == ToTicket(found[i])
  {
    seq(|found|, i requires 0 <= i < |found| => ToTicket(found[i]))
  }

  /** The project part of the result; `projectUrl` stands for the URL
      rewriting of the project's `self` link. */
  function Summary(project: Project, projectUrl: string -> string): (s: ProjectSummary)
    ensures s.name == project.name && s.projectType == project.projectTypeKey
    ensures s.iconUrl.Some? <==> AvatarSize in project.avatarUrls
    ensures s.iconUrl.Some? ==> s.iconUrl.value == project.avatarUrls[AvatarSize]
    ensures s.url == projectUrl(project.self)
  {
    ProjectSummary(
      project.name,
      if AvatarSize in project.avatarUrls then Some(project.avatarUrls[AvatarSize]) else None,
      project.projectTypeKey,
      projectUrl(project.self))
  }

  /** `getProjectDetails`. A failed project request throws before any search;
      a failed search page throws; otherwise the counters, ticket ids and
      tickets describe exactly the issues paging finds. */
  method GetProjectDetails(
    config: JiraClient.Config,
    proxyUrl: string,
    projectKey: string,
    component: string,
    labelName: string,
    statusesNames: seq<string>,
    fetchProject: string -> Response<Project>,
    fetchSearch: SearchFetch,
    projectUrl: string -> string,
    ghost bound: int)
    returns (r: Result<ProjectDetails, HttpError>)
    requires Advancing(fetchSearch, bound)
    ensures var apiUrl := JiraClient.GetUrls(config, proxyUrl).apiUrl;
            var project := CheckOk(fetchProject(JiraClient.ProjectUrl(apiUrl, projectKey)));
            var jql := JiraJql.Jql(projectKey, component, labelName, statusesNames);
            && (project.Err? ==> r == Err(project.error))
            && (project.Ok? && IssuesFrom(fetchSearch, apiUrl, jql, 0, bound).Err? ==>
                  r == Err(IssuesFrom(fetchSearch, apiUrl, jql, 0, bound).error))
            && (project.Ok? && IssuesFrom(fetchSearch, apiUrl, jql, 0, bound).Ok? ==>
                  var found := IssuesFrom(fetchSearch, apiUrl, jql, 0, bound).value;
                  r == Ok(ProjectDetails(
                         Summary(project.value, projectUrl),
                         IssuesCounters(project.value.issueTypes, found),
                         TicketIds(found),
                         Tickets(found))))
  {
    var apiUrl := JiraClient.GetUrls(config, proxyUrl).apiUrl;
    var project := CheckOk(fetchProject(JiraClient.ProjectUrl(apiUrl, projectKey)));
    if project.Err? {
      return Err(project.error);
    }
    var jql := JiraJql.Jql(projectKey, component, labelName, statusesNames);
    var found := GetIssuesPaged(fetchSearch, apiUrl, jql, bound);
    if found.Err? {
      return Err(found.error);
    }
    var issues := found.value;
    r := Ok(ProjectDetails(
      Summary(project.value, projectUrl),
      IssuesCounters(project.value.issueTypes, issues),
      TicketIds(issues),
      Tickets(issues)));
  }
}

=== FILE: jira_statuses.dfy ===
/** `getStatuses`: the names of a project's statuses outside the "Done"
    category, each once, in the order they first appear. */
module JiraStatuses {
  import opened Results
  import opened Http
  import opened Seqs
  import JiraClient

  const DoneStatusCategory := "Done"

  datatype StatusCategory = StatusCategory(name: string)
  datatype ProjectStatus = ProjectStatus(name: string, statusCategory: Option<StatusCategory>)

  /** One entry of the project statuses resource: the statuses of one issue type. */
  datatype IssueTypeStatuses = IssueTypeStatuses(statuses: seq<ProjectStatus>)

  /** `status.statusCategory?.name !== 'Done'`: a status without a category counts as open. */
  predicate IsOpen(s: ProjectStatus)
  {
    s.statusCategory.None? || s.statusCategory.value.name != DoneStatusCategory
  }

  /** `flatMap(status => status.statuses)`: every status of every issue type, in order. */
  function AllStatuses(resp: seq<IssueTypeStatuses>): seq<ProjectStatus>
  {
    Flatten(seq(|resp|, i requires 0 <= i < |resp| => resp[i].statuses))
  }

  /** `flatMap` keeps the order of the issue types: it commutes with concatenation. */
  lemma {:induction false} AllStatusesAppend(a: seq<IssueTypeStatuses>, b: seq<IssueTypeStatuses>)
    ensures AllStatuses(a + b) == AllStatuses(a) + AllStatuses(b)
  {
    var la := seq(|a|, i requires 0 <= i < |a| => a[i].statuses);
    var lb := seq(|b|, i requires 0 <= i < |b| => b[i].statuses);
    var ab := a + b;
    assert seq(|ab|, i requires 0 <= i < |ab| => ab[i].statuses) == la + lb;
    FlattenAppend(la, lb);
  }

  /** One issue type contributes exactly its own statuses. */
  lemma {:induction false} AllStatusesSingle(t: IssueTypeStatuses)
    ensures AllStatuses([t]) == t.statuses
  {
    assert seq(1, i requires 0 <= i < 1 => [t][i].statuses) == [t.statuses];
    FlattenSingle(t.statuses);
  }

  /** Some open status carries the name `name`. */
  predicate HasOpenStatus(statuses: seq<ProjectStatus>, name: string)
  {
    exists k :: 0 <= k < |statuses| && IsOpen(statuses[k]) && statuses[k].name == name
  }

  /** The names of the open statuses, in order, repetitions included. */
  function OpenNames(statuses: seq<ProjectStatus>): (names: seq<string>)
    ensures |names| <= |statuses|
    ensures forall i :: 0 <= i < |names| ==> HasOpenStatus(statuses, names[i])
    ensures forall k :: 0 <= k < |statuses| && IsOpen(statuses[k]) ==> statuses[k].name in names
  {
    if |statuses| == 0 then []
    else
      var rest := OpenNames(statuses[1..]);
      assert forall k :: 1 <= k < |statuses| ==> statuses[k] == statuses[1..][k - 1];
      if IsOpen(statuses[0]) then [statuses[0].name] + rest else rest
  }

  /** `filter().map()` keeps the order of the statuses, repetitions included:
      it commutes with concatenation. */
  lemma {:induction false} OpenNamesKeepOrder(a: seq<ProjectStatus>, b: seq<ProjectStatus>)
    ensures OpenNames(a + b) == OpenNames(a) + OpenNames(b)
  {
    if |a| == 0 {
      assert a + b == b;
    } else {
      assert (a + b)[0] == a[0];
      assert (a + b)[1..] == a[1..] + b;
      OpenNamesKeepOrder(a[1..], b);
    }
  }

  /** A single status yields its name exactly when it is open. */
  lemma {:induction false} OpenNamesSingle(s: ProjectStatus)
    ensures OpenNames([s]) == if IsOpen(s) then [s.name] else []
  {
    assert [s][1..] == [];
  }

  /** Elements ordered by where each first occurs in `xs`. */
  predicate InFirstOccurrenceOrder(r: seq<string>, xs: seq<string>)
    requires forall i :: 0 <= i < |r| ==> r[i] in xs
  {
    forall i, j :: 0 <= i < j < |r| ==> IndexOf(xs, r[i]) < IndexOf(xs, r[j])
  }

  /** `r` is `[...new Set(xs[..n])]`: the distinct elements of the first
      `n` entries of `xs`, in order of first occurrence. */
  predicate DistinctPrefix(xs: seq<string>, r: seq<string>, n: nat)
    requires n <= |xs|
  {
    && (forall k :: 0 <= k < n ==> xs[k] in r)
    && (forall i :: 0 <= i < |r| ==> r[i] in xs && IndexOf(xs, r[i]) < n)
    && NoDuplicates(r)
    && (forall i, j :: 0 <= i < j < |r| ==> IndexOf(xs, r[i]) < IndexOf(xs, r[j]))
  }

  /** An element already seen adds nothing. */
  lemma {:induction false} DistinctSkip(xs: seq<string>, r: seq<string>, n: nat)
    requires n < |xs| && DistinctPrefix(xs, r, n) && xs[n] in r
    ensures DistinctPrefix(xs, r, n + 1)
  {
  }

  /** An element not seen before is new in `xs` too, and goes last. */
  lemma {:induction false} DistinctAppend(xs: seq<string>, r: seq<string>, n: nat)
    requires n < |xs| && DistinctPrefix(xs, r, n) && xs[n] !in r
    ensures DistinctPrefix(xs, r + [xs[n]], n + 1)
  {
    var x := xs[n];
    assert IndexOf(xs, x) == n;
    var r' := r + [x];
    forall k | 0 <= k < n + 1 ensures xs[k] in r' {
      if k < n { assert xs[k] in r; }
    }
    forall i | 0 <= i < |r'| ensures r'[i] in xs && IndexOf(xs, r'[i]) < n + 1 {
      if i < |r| { assert r'[i] == r[i]; }
    }
    forall i, j | 0 <= i < j < |r'| ensures r'[i] != r'[j] && IndexOf(xs, r'[i]) < IndexOf(xs, r'[j]) {
      assert r'[i] == r[i];
      if j < |r| { assert r'[j] == r[j]; }
    }
  }

  /** `[...new Set(xs)]`: each element once, in order of first occurrence.
      Membership in the list built so far stands for membership in the set. */
  method Distinct(xs: seq<string>) returns (r: seq<string>)
    ensures NoDuplicates(r)
    ensures forall i :: 0 <= i < |r| ==> r[i] in xs
    ensures forall k :: 0 <= k < |xs| ==> xs[k] in r
    ensures InFirstOccurrenceOrder(r, xs)
  {
    r := [];
    for n := 0 to |xs|
      invariant DistinctPrefix(xs, r, n)
    {
      var x := xs[n];
      if x in r {
        DistinctSkip(xs, r, n);
      } else {
        DistinctAppend(xs, r, n);
        r := r + [x];
      }
    }
  }

  /** `getStatuses`. A failed request throws; otherwise every open status
      name appears exactly once, nothing else appears, and names keep the
      order in which they first appear among the open statuses. */
  method GetStatuses(
    config: JiraClient.Config,
    proxyUrl: string,
    projectKey: string,
    fetchStatuses: string -> Response<seq<IssueTypeStatuses>>)
    returns (r: Result<seq<string>, HttpError>)
    ensures var apiUrl := JiraClient.GetUrls(config, proxyUrl).apiUrl;
            var resp := CheckOk(fetchStatuses(JiraClient.StatusesUrl(apiUrl, projectKey)));
            && (resp.Err? ==> r == Err(resp.error))
            && (resp.Ok? ==>
                  var all := AllStatuses(resp.value);
                  var open := OpenNames(all);
                  && r.Ok?
                  && NoDuplicates(r.value)
                  && (forall i :: 0 <= i < |r.value| ==> HasOpenStatus(all, r.value[i]))
                  && (forall k :: 0 <= k < |all| && IsOpen(all[k]) ==> all[k].name in r.value)
                  && InFirstOccurrenceOrder(r.value, open))
  {
    var apiUrl := JiraClient.GetUrls(config, proxyUrl).apiUrl;
    var resp := CheckOk(fetchStatuses(JiraClient.StatusesUrl(apiUrl, projectKey)));
    if resp.Err? {
      return Err(resp.error);
    }
    var open := OpenNames(AllStatuses(resp.value));
    var names := Distinct(open);
    r := Ok(names);
  }
}

=== FILE: results.dfy ===
/** Optional values and success/failure results.

    `Option` stands for a TypeScript value that may be `undefined`;
    `Result` stands for a call that either returns or throws. */
module Results {

  /** A value of type `T`, or `undefined`. */
  datatype Option<+T> = None | Some(value: T) {

    /** The value, or `default` when it is `undefined` (JavaScript's `??`). */
    function GetOr(default: T): T
    {
      match this
      case Some(v) => v
      case None => default
    }
  }

  /** The outcome of a call: a returned value, or the error it threw. */
  datatype Result<+T, +E> = Ok(value: T) | Err(error: E)
}

=== FILE: seqs.dfy ===
/** Sequence operations the clients use: `flatMap`, distinctness, and the
    first position of an element. */
module Seqs {

  /** `xss.flat()`: the inner sequences one after another. */
  function Flatten<T>(xss: seq<seq<T>>): (r: seq<T>)
    ensures forall i, j :: 0 <= i < |xss| && 0 <= j < |xss[i]| ==> xss[i][j] in r
  {
    if |xss| == 0 then []
    else
      var rest := Flatten(xss[1..]);
      assert forall i :: 1 <= i < |xss| ==> xss[i] == xss[1..][i - 1];
      xss[0] + rest
  }

  /** Flattening keeps the order of the inner sequences: it commutes with concatenation. */
  lemma {:induction false} FlattenAppend<T>(a: seq<seq<T>>, b: seq<seq<T>>)
    ensures Flatten(a + b) == Flatten(a) + Flatten(b)
  {
    if |a| == 0 {
      assert a + b == b;
    } else {
      assert (a + b)[1..] == a[1..] + b;
      FlattenAppend(a[1..], b);
    }
  }

  /** A single inner sequence flattens to itself. */
  lemma {:induction false} FlattenSingle<T>(xs: seq<T>)
    ensures Flatten([xs]) == xs
  {
    assert [xs][1..] == [];
  }

  /** No element occurs twice. */
  predicate NoDuplicates<T(==)>(xs: seq<T>)
  {
    forall i, j :: 0 <= i < j < |xs| ==> xs[i] != xs[j]
  }

  /** The position of the first occurrence of `x` in `xs`. */
  function IndexOf<T(==)>(xs: seq<T>, x: T): (k: nat)
    requires x in xs
    ensures k < |xs| && xs[k] == x
    ensures forall j :: 0 <= j < k ==> xs[j] != x
  {
    if xs[0] == x then 0 else 1 + IndexOf(xs[1..], x)
  }
}

=== FILE: strings.dfy ===
/** JavaScript string operations the clients rely on: `Array.prototype.join`,
    splitting at a separator character, truthiness of an optional string,
    template-literal rendering of `undefined`, and `Number.prototype.toString`
    for integers. */
module Strings {
  import opened Results

  /** `parts.join(sep)`: the parts with `sep` between consecutive ones. */
  function Join(parts: seq<string>, sep: string): string
  {
    if |parts| == 0 then ""
    else if |parts| == 1 then parts[0]
    else parts[0] + sep + Join(parts[1..], sep)
  }

  /** The pieces of `s` between occurrences of `c`; the inverse of joining with `[c]`. */
  function Split(s: string, c: char): (r: seq<string>)
    ensures |r| >= 1
    ensures forall i :: 0 <= i < |r| ==> c !in r[i]
  {
    if |s| == 0 then [""]
    else
      var rest := Split(s[1..], c);
      if s[0] == c then [""] + rest
      else [[s[0]] + rest[0]] + rest[1..]
  }

  /** No part contains the character `c`. */
  predicate Free(parts: seq<string>, c: char)
  {
    forall i :: 0 <= i < |parts| ==> c !in parts[i]
  }

  /** `s` begins with `p`. */
  predicate StartsWith(s: string, p: string)
  {
    |p| <= |s| && s[..|p|] == p
  }

  /** `s` ends with `p`. */
  predicate EndsWith(s: string, p: string)
  {
    |p| <= |s| && s[|s| - |p|..] == p
  }

  /** Truthiness of a `string | undefined`: defined and not empty. */
  predicate Truthy(s: Option<string>)
  {
    s.Some? && s.value != ""
  }

  /** How a template literal renders a `string | undefined`: `undefined` becomes the text "undefined". */
  function Render(s: Option<string>): (r: string)
    ensures s.Some? ==> r == s.value
    ensures s.None? ==> r == "undefined"
  {
    s.GetOr("undefined")
  }

  lemma {:induction false} SplitOfFree(a: string, c: char)
    requires c !in a
    ensures Split(a, c) == [a]
  {
    if |a| > 0 {
      SplitOfFree(a[1..], c);
      assert [a[0]] + a[1..] == a;
    }
  }

  /** Splitting at a separator that the first piece does not contain peels that piece off. */
  lemma {:induction false} SplitAtFirst(a: string, b: string, c: char)
    requires c !in a
    ensures Split(a + [c] + b, c) == [a] + Split(b, c)
  {
    if |a| == 0 {
      assert a + [c] + b == [c] + b;
      assert ([c] + b)[1..] == b;
    } else {
      var s := a + [c] + b;
      assert s[0] == a[0];
      assert s[1..] == a[1..] + [c] + b;
      SplitAtFirst(a[1..], b, c);
      assert [a[0]] + a[1..] == a;
    }
  }

  /** Joining with a one-character separator that no part contains, then splitting, gives the parts back. */
  lemma {:induction false} SplitJoin(parts: seq<string>, c: char)
    requires |parts| >= 1
    requires Free(parts, c)
    ensures Split(Join(parts, [c]), c) == parts
  {
    if |parts| == 1 {
      SplitOfFree(parts[0], c);
    } else {
      SplitJoin(parts[1..], c);
      SplitAtFirst(parts[0], Join(parts[1..], [c]), c);
      assert [parts[0]] + parts[1..] == parts;
    }
  }

  /** Splitting and joining again with the same separator gives the string back. */
  lemma {:induction false} JoinSplit(s: string, c: char)
    ensures Join(Split(s, c), [c]) == s
  {
    if |s| > 0 {
      JoinSplit(s[1..], c);
      var rest := Split(s[1..], c);
      if s[0] == c {
        assert Join([""] + rest, [c]) == "" + [c] + Join(rest, [c]);
        assert [s[0]] + s[1..] == s;
      } else {
        var p := [[s[0]] + rest[0]] + rest[1..];
        if |rest| == 1 {
          assert p == [[s[0]] + rest[0]];
          assert Join(rest, [c]) == rest[0];
        } else {
          assert p[1..] == rest[1..];
          assert Join(rest, [c]) == rest[0] + [c] + Join(rest[1..], [c]);
        }
        assert [s[0]] + s[1..] == s;
      }
    }
  }

  /** A concatenation of strings free of `c` is free of `c`. */
  lemma {:induction false} FreeAppend(a: string, b: string, c: char)
    requires c !in a && c !in b
    ensures c !in a + b
  {
  }

  /** Joining parts free of `c` with a separator free of `c` gives a string free of `c`. */
  lemma {:induction false} JoinFree(parts: seq<string>, sep: string, c: char)
    requires Free(parts, c)
    requires c !in sep
    ensures c !in Join(parts, sep)
  {
    if |parts| >= 2 {
      JoinFree(parts[1..], sep, c);
    }
  }

  /** The join of non-empty parts is empty exactly when there are no parts. */
  lemma {:induction false} JoinEmpty(parts: seq<string>, sep: string)
    requires forall i :: 0 <= i < |parts| ==> parts[i] != ""
    ensures Join(parts, sep) == "" <==> |parts| == 0
  {
  }

  /** A join of two or more parts opens with the first part and the separator. */
  lemma {:induction false} JoinStartsWithFirstAndSep(parts: seq<string>, sep: string)
    requires |parts| >= 2
    ensures StartsWith(Join(parts, sep), parts[0] + sep)
  {
  }

  /** Joining is appending the separator and the last part to the join of the others. */
  lemma {:induction false} JoinSnoc(parts: seq<string>, sep: string)
    requires |parts| >= 2
    ensures Join(parts, sep) == Join(parts[..|parts| - 1], sep) + sep + parts[|parts| - 1]
  {
    if |parts| == 2 {
      assert parts[..1] == [parts[0]];
      assert parts[1..] == [parts[1]];
    } else {
      var rest := parts[1..];
      JoinSnoc(rest, sep);
      assert rest[..|rest| - 1] == parts[..|parts| - 1][1..];
    }
  }

  /** A join of three or more parts closes with the last two parts, each after a separator. */
  lemma {:induction false} JoinEndsWithLastTwo(parts: seq<string>, sep: string)
    requires |parts| >= 3
    ensures EndsWith(Join(parts, sep), sep + parts[|parts| - 2] + sep + parts[|parts| - 1])
  {
    var n := |parts|;
    var init := parts[..n - 1];
    JoinSnoc(parts, sep);
    JoinSnoc(init, sep);
    assert init[..n - 2] == parts[..n - 2];
    assert init[n - 2] == parts[n - 2];
    var prefix := Join(parts[..n - 2], sep);
    var tail := sep + parts[n - 2] + sep + parts[n - 1];
    assert Join(parts, sep) == prefix + tail;
    EndsWithAppend(prefix, tail);
  }

  /** A concatenation ends with its second half. */
  lemma {:induction false} EndsWithAppend(prefix: string, tail: string)
    ensures EndsWith(prefix + tail, tail)
  {
  }

  // ---------------------------------------------------------------------
  // Decimal rendering of integers (`Number.prototype.toString` on integers)
  // ---------------------------------------------------------------------

  predicate IsDigit(ch: char)
  {
    '0' <= ch <= '9'
  }

  predicate AllDigits(s: string)
  {
    forall i :: 0 <= i < |s| ==> IsDigit(s[i])
  }

  function DigitChar(d: nat): (ch: char)
    requires d < 10
    ensures IsDigit(ch) && ch as int == '0' as int + d
  {
    ('0' as int + d) as char
  }

  function DigitValue(ch: char): (d: nat)
    requires IsDigit(ch)
    ensures d < 10
  {
    (ch as int - '0' as int) as nat
  }

  /** The decimal digits of `n`, most significant first, with no leading zero. */
  function NatToDecimal(n: nat): (r: string)
    ensures |r| >= 1
    ensures AllDigits(r)
    ensures r[0] == '0' ==> n == 0 && r == "0"
  {
    if n < 10 then [DigitChar(n)]
    else NatToDecimal(n / 10) + [DigitChar(n % 10)]
  }

  /** `n.toString()` for an integer `n`: a minus sign for negatives, then the digits. */
  function IntToDecimal(n: int): (r: string)
    ensures |r| >= 1
    ensures forall i :: 0 <= i < |r| ==> IsDigit(r[i]) || r[i] == '-'
  {
    if n < 0 then "-" + NatToDecimal(-n) else NatToDecimal(n)
  }

  /** The number a string of digits denotes. */
  function DecimalValue(s: string): nat
    requires AllDigits(s)
  {
    if |s| == 0 then 0
    else DecimalValue(s[..|s| - 1]) * 10 + DigitValue(s[|s| - 1])
  }

  /** The integer an optional minus sign followed by digits denotes. */
  function ParseInt(s: string): int
    requires IntSyntax(s)
  {
    if s[0] == '-' then -(DecimalValue(s[1..]) as int) else DecimalValue(s)
  }

  lemma {:induction false} NatDecimalRoundTrip(n: nat)
    ensures DecimalValue(NatToDecimal(n)) == n
  {
    if n >= 10 {
      NatDecimalRoundTrip(n / 10);
      var r := NatToDecimal(n);
      assert r[..|r| - 1] == NatToDecimal(n / 10);
    }
  }

  /** An optional minus sign followed by digits. */
  predicate IntSyntax(s: string)
  {
    |s| >= 1 && ((s[0] == '-' && AllDigits(s[1..])) || AllDigits(s))
  }

  /** Digits without a leading zero, unless the number is zero itself. */
  predicate CanonicalDigits(d: string)
  {
    |d| >= 1 && AllDigits(d) && (d[0] == '0' ==> |d| == 1)
  }

  /** The canonical text of an integer: canonical digits, preceded by a minus
      sign exactly when the integer is negative (so never `-0`). */
  predicate CanonicalInt(s: string)
  {
    if |s| >= 1 && s[0] == '-' then CanonicalDigits(s[1..]) && s[1..] != "0"
    else CanonicalDigits(s)
  }

  /** Rendering an integer gives its canonical text, and reading it back gives the integer. */
  lemma {:induction false} IntDecimalRoundTrip(n: int)
    ensures IntSyntax(IntToDecimal(n))
    ensures CanonicalInt(IntToDecimal(n))
    ensures ParseInt(IntToDecimal(n)) == n
  {
    if n < 0 {
      var d := NatToDecimal(-n);
      NatDecimalRoundTrip(-n);
      assert IntToDecimal(n) == "-" + d;
      assert ("-" + d)[1..] == d;
      assert d != "0";
    } else {
      NatDecimalRoundTrip(n);
      assert NatToDecimal(n)[0] != '-';
    }
  }

  /** A digit string with a non-zero first digit denotes a positive number. */
  lemma {:induction false} LeadingDigitPositive(d: string)
    requires |d| >= 1 && AllDigits(d) && d[0] != '0'
    ensures DecimalValue(d) >= 1
  {
    if |d| > 1 {
      var front := d[..|d| - 1];
      assert front[0] == d[0];
      LeadingDigitPositive(front);
    } else {
      assert d[..0] == [];
    }
  }

  /** Canonical digits are exactly the rendering of the number they denote. */
  lemma {:induction false} CanonicalDigitsRendering(d: string)
    requires CanonicalDigits(d)
    ensures NatToDecimal(DecimalValue(d)) == d
  {
    var last := d[|d| - 1];
    var front := d[..|d| - 1];
    if |d| == 1 {
      assert front == [];
      assert DecimalValue(d) == DigitValue(last);
      assert DigitChar(DigitValue(last)) == last;
      assert d == [last];
    } else {
      assert front[0] == d[0];
      LeadingDigitPositive(front);
      CanonicalDigitsRendering(front);
      var v := DecimalValue(front);
      var n := DecimalValue(d);
      assert n == v * 10 + DigitValue(last);
      assert n / 10 == v && n % 10 == DigitValue(last);
      assert DigitChar(DigitValue(last)) == last;
      assert d == front + [last];
    }
  }

  /** The canonical text of an integer is unique: any canonical text is the
      rendering of the integer it denotes. */
  lemma {:induction false} CanonicalIsRendering(s: string)
    requires CanonicalInt(s)
    ensures IntSyntax(s)
    ensures IntToDecimal(ParseInt(s)) == s
  {
    if s[0] == '-' {
      var d := s[1..];
      CanonicalDigitsRendering(d);
      LeadingDigitPositive(d);
      assert s == "-" + d;
    } else {
      CanonicalDigitsRendering(s);
    }
  }

  /** Different integers render differently. */
  lemma {:induction false} IntToDecimalInjective(m: int, n: int)
    requires IntToDecimal(m) == IntToDecimal(n)
    ensures m == n
  {
    IntDecimalRoundTrip(m);
    IntDecimalRoundTrip(n);
  }
}
